=== FILE: README.md ===
# Sylves grid topology core, in Dafny

This project models the integer and symbolic core of Sylves, a C# grid-topology
library, and proves properties of it:

- **Cell-type symmetry algebra.** `SquareCellType` and `HexPrismCellType` share the
  signed-integer rotation encoding. `k >= 0` is the rotation by `k` steps and `~k`
  (`-k-1`) is the reflection with index `k`. Both are built on one `Dihedral`
  module. In it, a rotation acts on a side by `d |-> (d + k) mod n` and a
  reflection by `d |-> (k - d) mod n`, with n = 4 or 6. A hex prism also has two
  axial caps, Forward (6) and Back (7), that every rotation fixes. The move-time
  `Rotate` reports a `Connection` per face family. `TryGetRotation` inverts it.
- **`HexGrid`.** Cube-coordinate moves. The inverse side is `(3 + dir) % 6`. An
  offset is re-expressed under a rotation or reflection. The bound algebra treats
  `null` as the unbounded grid. Bound-dependent queries on an unbounded grid fail.
- **`DefaultGridImpl`.** `ParallelTransport` replays a path of hops from one grid
  in another. The stubs throw, and the default bound algebra supports no bounds.
- **`WrapModifier`.** Moves are made in the unbounded underlying grid, then the
  result is canonicalised.
- **`XZModifier`.** The integer axis-swap matrices. Cell types are replaced by
  their XZ variants. Cross-grid transport between two XZ grids is dispatched to
  their underlying grids, and an XZ destination otherwise hands it to its
  underlying grid.
- **`SquareBound`.** A half-open integer box with containment, intersection,
  union hull and enumeration.

The modules and their files:

| module | file | models |
|---|---|---|
| `Base` | base.dfy | cells, connections, the errors, and C#'s `%` and `~` |
| `Dihedral` | dihedral.dfy | the dihedral group of the n-gon and its action on sides |
| `SquareCellType` | square_cell_type.dfy | SquareCellType.cs |
| `HexPrismCellType` | hex_prism_cell_type.dfy | HexPrismCellType.cs |
| `IGrid` | igrid.dfy | the part of the grid protocol the generic code uses |
| `HexGrid` | hex_grid.dfy | HexGrid.cs |
| `DefaultGridImpl` | default_grid_impl.dfy | DefaultGridImpl.cs |
| `WrapModifier` | wrap_modifier.dfy | WrapModifier.cs |
| `XZModifier` | xz_modifier.dfy | XZModifier.cs |
| `SquareBound` | square_bound.dfy | SquareBound.cs |

Conventions:

- A thrown exception is a `Failure` of a `Result` (`NotImplemented`,
  `GridInfinite`, `UnknownDir`, `InfiniteBound`, `InvalidOperation`).
- Out-parameters become fields of a result record (`Move`, `OffsetMove`,
  `Transport`).
- `null` is `None`.
- C#'s truncating `%` is `CRem`.
- A grid is seen through a record of its operations (`IGrid.GridOps`), paired
  with its `Unbounded` relative (`IGrid.Grid`).
- A cell type's `Rotate(dir, rotation)` is a function parameter `rotate`.
- Cell types are compared by identity, as C# compares references.

Collaborators whose code is not part of this model are taken as follows:

- `HexRotation` and `SquareRotation` act on sides by the dihedral action above.
  `PTHexCorner` corner `c` lies between `PTHexDir` sides `c` and `c + 1`, so
  `HexRotation` moves corners as sides under a rotation, and the reflection `~k`
  sends corner `c` to `(k - 1 - c) mod 6`. `SquareDir.Inverted` is the half turn. `PTHexPrismDir.Inverted`
  swaps Forward and Back and turns an equatorial side by three.
- `PTHexPrismDir.Forward` and `PTHexPrismDir.Back` are 6 and 7, after the six
  equatorial sides 0..5.
- `FTHexDir` numbers the six sides 0..5 in the order of the switch in `TryMove`.
- `HexBound` is a type `B` with uninterpreted `contains`, `intersect` and `union`.
- `XZCellModifier.Get` is a function parameter `xz`.
- `IGrid.ParallelTransport` on a grid with no override runs
  `DefaultGridImpl.ParallelTransport` with that grid as the destination.
- A modifier forwards every member it does not override to its underlying grid.
  This includes `base.ParallelTransport` of the XZ modifier, which calls the
  underlying grid's `ParallelTransport` with the same source grid. The comment at
  XZModifier.cs:63-64 relies on this: between two XZ grids, the inherited call
  would pair an underlying grid with a modified one.

## Model

| member | source | states |
|---|---|---|
| Base.CRemNormalize | Unity/Sylves/Assets/Sylves/SylvesRuntime/Grid/HexPrism/HexPrismCellType.cs:133-140 | `(x % 6 + 6) % 6` with C#'s truncating remainder is the mathematical `x mod 6`, for every integer x |
| Dihedral.ActMultiply | Unity/Sylves/Assets/Sylves/SylvesRuntime/Grid/HexPrism/HexPrismCellType.cs:41 | the product of two rotations acts as doing one after the other, for every n-gon |
| Dihedral.Associativity | src/Sylves/Grid/Square/SquareCellType.cs:55 | multiplication of rotations is associative (n >= 3), proved through faithfulness of the action |
| Dihedral.RotationsListing | Unity/Sylves/Assets/Sylves/SylvesRuntime/Grid/HexPrism/HexPrismCellType.cs:22-23 | the listing `0..n-1, ~0..~(n-1)` holds exactly the valid encodings, each once |
| SquareCellType.CellDirsAreTheFourSides | src/Sylves/Grid/Square/SquareCellType.cs:15-21 | GetCellDirs is Right, Up, Left, Down: four distinct sides, exactly 0..3 |
| SquareCellType.GetRotations | src/Sylves/Grid/Square/SquareCellType.cs:53 | the four rotations, or all eight rotations and reflections: each valid encoding exactly once |
| SquareCellType.RotationTables | src/Sylves/Grid/Square/SquareCellType.cs:23-53 | GetRotations(false) is 0..3; GetRotations(true) is 0..3 then ~0..~3, eight distinct values, exactly the valid encodings |
| SquareCellType.Rotate | src/Sylves/Grid/Square/SquareCellType.cs:61-66 | rotating a side always yields one of the four sides |
| SquareCellType.RotateConnection | src/Sylves/Grid/Square/SquareCellType.cs:68-72 | the 4-argument Rotate gives the 2-argument Rotate's side; Mirror holds iff the rotation is a reflection; the other connection fields keep their defaults |
| SquareCellType.Multiply | src/Sylves/Grid/Square/SquareCellType.cs:55 | the product of two of the eight rotations is one of the eight |
| SquareCellType.Invert | src/Sylves/Grid/Square/SquareCellType.cs:57 | the inverse of one of the eight rotations is one of the eight |
| SquareCellType.MultiplyActs | src/Sylves/Grid/Square/SquareCellType.cs:55 | rotating by `a * b` is rotating by b and then by a |
| SquareCellType.GroupLaws | src/Sylves/Grid/Square/SquareCellType.cs:55-59 | Multiply, Invert and GetIdentity obey associativity, identity and inverse laws on all eight rotations |
| SquareCellType.InvertDir | src/Sylves/Grid/Square/SquareCellType.cs:49 | the opposite side is one of the four sides and never the side itself |
| SquareCellType.IdentityFixesEveryDirection | src/Sylves/Grid/Square/SquareCellType.cs:59-72 | the identity rotation fixes every side, in both forms of Rotate, with the default connection |
| SquareCellType.InvertDirInvolution | src/Sylves/Grid/Square/SquareCellType.cs:49 | the opposite of the opposite side is the side |
| SquareCellType.InvertDirCommutesWithRotate | src/Sylves/Grid/Square/SquareCellType.cs:49 | opposite sides stay opposite under all eight rotations and reflections, which with the two facts above forces the half turn |
| SquareCellType.OppositeSides | src/Sylves/Grid/Square/SquareCellType.cs:49 | Right and Left are opposite, and so are Up and Down |
| SquareCellType.Examples | src/Sylves/Grid/Square/SquareCellType.cs:61-66 | a quarter turn takes Right to Up; Right's opposite is Left; two quarter turns make a half turn |
| HexPrismCellType.Get | Unity/Sylves/Assets/Sylves/SylvesRuntime/Grid/HexPrism/HexPrismCellType.cs:27 | the instance returned has the requested orientation |
| HexPrismCellType.GetRotations | Unity/Sylves/Assets/Sylves/SylvesRuntime/Grid/HexPrism/HexPrismCellType.cs:39 | the six rotations, or all twelve rotations and reflections: each valid encoding exactly once |
| HexPrismCellType.Tables | Unity/Sylves/Assets/Sylves/SylvesRuntime/Grid/HexPrism/HexPrismCellType.cs:18-39 | directions are 0..5 then Forward, Back (8 distinct); 12 corners; the pure list 0..5 without reflections; 12 distinct rotations `0..5, ~0..~5` with them |
| HexPrismCellType.ListedIsValid | Unity/Sylves/Assets/Sylves/SylvesRuntime/Grid/HexPrism/HexPrismCellType.cs:22-23 | a value is in the full rotation list iff it is a valid encoding |
| HexPrismCellType.Rotate | Unity/Sylves/Assets/Sylves/SylvesRuntime/Grid/HexPrism/HexPrismCellType.cs:47-50 | caps are fixed; an equatorial side goes to an equatorial side |
| HexPrismCellType.AxialFixed | Unity/Sylves/Assets/Sylves/SylvesRuntime/Grid/HexPrism/HexPrismCellType.cs:47-68 | Forward and Back are fixed points of both forms of Rotate for every rotation |
| HexPrismCellType.RotateCorner | Unity/Sylves/Assets/Sylves/SylvesRuntime/Grid/HexPrism/HexPrismCellType.cs:52-57 | a corner in 0..11 stays in 0..11 and on its cap (`>= 6` iff the result is) |
| HexPrismCellType.RotateCornerKeepsCap | Unity/Sylves/Assets/Sylves/SylvesRuntime/Grid/HexPrism/HexPrismCellType.cs:52-57 | a corner stays on its cap, and modulo 6 it moves by the hexagon's corner action: as sides under a rotation, to `k - 1 - c` under the reflection `~k` |
| HexPrismCellType.CornersFollowSides | Unity/Sylves/Assets/Sylves/SylvesRuntime/Grid/HexPrism/HexPrismCellType.cs:52-57 | the two equatorial sides bounding a corner are sent by Rotate to the two bounding its image, in order for a rotation and swapped for a reflection |
| HexPrismCellType.CornerExamples | Unity/Sylves/Assets/Sylves/SylvesRuntime/Grid/HexPrism/HexPrismCellType.cs:52-57 | `~0` fixes side 0 but sends corner 0 to corner 5 (and 6 to 11); rotation 1 sends corner 7, on the Forward cap of corners 6..11, to corner 8 |
| Dihedral.CornerBetweenSides | Unity/Sylves/Assets/Sylves/SylvesRuntime/Grid/HexPrism/HexPrismCellType.cs:55 | for every n-gon, the corner action is the one the side action induces on the corners between consecutive sides |
| HexPrismCellType.Multiply | Unity/Sylves/Assets/Sylves/SylvesRuntime/Grid/HexPrism/HexPrismCellType.cs:41 | the product of two valid rotations is valid |
| HexPrismCellType.Invert | Unity/Sylves/Assets/Sylves/SylvesRuntime/Grid/HexPrism/HexPrismCellType.cs:43 | the inverse of a valid rotation is valid |
| HexPrismCellType.MultiplyActs | Unity/Sylves/Assets/Sylves/SylvesRuntime/Grid/HexPrism/HexPrismCellType.cs:41-50 | rotating any direction by `a * b` is rotating by b and then by a |
| HexPrismCellType.GroupLaws | Unity/Sylves/Assets/Sylves/SylvesRuntime/Grid/HexPrism/HexPrismCellType.cs:41-45 | associativity, identity and inverse laws on all twelve rotations |
| HexPrismCellType.InvertDir | Unity/Sylves/Assets/Sylves/SylvesRuntime/Grid/HexPrism/HexPrismCellType.cs:37 | the opposite direction exists, is a cap iff the direction is, and is never the direction itself |
| HexPrismCellType.IdentityFixesEveryDirection | Unity/Sylves/Assets/Sylves/SylvesRuntime/Grid/HexPrism/HexPrismCellType.cs:45-91 | the identity rotation fixes all eight directions, in both forms of Rotate, and never fails |
| HexPrismCellType.InvertDirInvolution | Unity/Sylves/Assets/Sylves/SylvesRuntime/Grid/HexPrism/HexPrismCellType.cs:37 | the opposite of the opposite direction is the direction |
| HexPrismCellType.InvertDirCommutesWithRotate | Unity/Sylves/Assets/Sylves/SylvesRuntime/Grid/HexPrism/HexPrismCellType.cs:37 | opposite directions stay opposite under all twelve rotations and reflections, which with the two facts above forces the half turn on the sides |
| HexPrismCellType.OppositeDirections | Unity/Sylves/Assets/Sylves/SylvesRuntime/Grid/HexPrism/HexPrismCellType.cs:37 | Forward and Back are opposite, and equatorial side d is opposite side d + 3 mod 6 |
| HexPrismCellType.RotateConnection | Unity/Sylves/Assets/Sylves/SylvesRuntime/Grid/HexPrism/HexPrismCellType.cs:59-91 | fails (NotImplemented) exactly for a reflection across the back cap of a flat-topped prism; otherwise gives Rotate's direction, Mirror iff reflection, 6 sides on a cap and 4 on a side |
| HexPrismCellType.CapExamples | Unity/Sylves/Assets/Sylves/SylvesRuntime/Grid/HexPrism/HexPrismCellType.cs:61-84 | rotation 2 gives (false, 2, 6) on the front cap and (false, 4, 6) on the back cap; `~2` on a flat-topped back cap fails |
| HexPrismCellType.CapConnections | Unity/Sylves/Assets/Sylves/SylvesRuntime/Grid/HexPrism/HexPrismCellType.cs:61-84 | front cap: Rotation is the rotation index; back cap: `(6 - index) % 6`; Sides 6 and Mirror iff reflection on both |
| HexPrismCellType.SideConnections | Unity/Sylves/Assets/Sylves/SylvesRuntime/Grid/HexPrism/HexPrismCellType.cs:85-90 | equatorial sides never fail and report (false, 0, 4) for rotations and (true, 2, 4) for reflections |
| HexPrismCellType.TryGetRotation | Unity/Sylves/Assets/Sylves/SylvesRuntime/Grid/HexPrism/HexPrismCellType.cs:93-146 | throws exactly for a mirrored back-to-back connection on a flat-topped prism; returns false exactly for a cap with a different target, a side with a cap target, or a side connection other than (false, 0) and (true, 2) |
| HexPrismCellType.RotateThenTryGetRotation | Unity/Sylves/Assets/Sylves/SylvesRuntime/Grid/HexPrism/HexPrismCellType.cs:59-146 | round trip: whenever Rotate succeeds, TryGetRotation on its direction and connection returns exactly the rotation |
| HexPrismCellType.BackCapRoundTrip | Unity/Sylves/Assets/Sylves/SylvesRuntime/Grid/HexPrism/HexPrismCellType.cs:81-120 | the back cap's `(6 - k) % 6` undoes itself, so the back-cap connection gives back its rotation |
| HexPrismCellType.SideRoundTrip | Unity/Sylves/Assets/Sylves/SylvesRuntime/Grid/HexPrism/HexPrismCellType.cs:131-142 | the side formulas `~((to + from) % 6 + 6) % 6` and `((to - from) % 6 + 6) % 6` recover a reflection and a rotation from the sides they connect |
| HexPrismCellType.SideRecoveryReflection | Unity/Sylves/Assets/Sylves/SylvesRuntime/Grid/HexPrism/HexPrismCellType.cs:131-136 | the reflection found for a pair of sides is valid and sends the first side to the second |
| HexPrismCellType.SideRecoveryRotation | Unity/Sylves/Assets/Sylves/SylvesRuntime/Grid/HexPrism/HexPrismCellType.cs:137-142 | the rotation found for a pair of sides is valid and sends the first side to the second |
| HexPrismCellType.TryGetRotationThenRotate | Unity/Sylves/Assets/Sylves/SylvesRuntime/Grid/HexPrism/HexPrismCellType.cs:59-146 | converse round trip: a rotation TryGetRotation finds is valid, and Rotate reproduces the direction and connection it was given (for connections Rotate can produce) |
| HexGrid.TryMove | src/Sylves/Hex/HexGrid.cs:157-173 | an unknown side fails with UnknownDir; otherwise inverseDir is `(3 + dir) % 6`, the destination is the cell plus that side's cube offset, the connection is the default, and the move succeeds iff the grid is unbounded or its bound contains the destination |
| HexGrid.OffsetsAreCubeSteps | src/Sylves/Hex/HexGrid.cs:164-169 | each of the six offsets is a non-zero step with x + y + z == 0 |
| HexGrid.InverseDirPairs | src/Sylves/Hex/HexGrid.cs:160-169 | the inverse side is in 0..5, applying it twice returns the side, and the two offsets are negations of each other |
| HexGrid.MoveThenInverseReturns | src/Sylves/Hex/HexGrid.cs:157-173 | moving along a side and then along the reported inverse side returns to the start cell |
| HexGrid.AsGridPaths | src/Sylves/Hex/HexGrid.cs:96-173 | seen as a generic grid, a one-hop path is valid iff the bound admits the neighbour, and on the Unbounded relative a hop and the hop back form a valid loop |
| HexGrid.MovePreservesCubeInvariant | src/Sylves/Hex/HexGrid.cs:164-169 | moves keep cells on the plane x + y + z == 0 |
| HexGrid.UnboundedMovesSucceed | src/Sylves/Hex/HexGrid.cs:107-121 | the Unbounded relative accepts every known side, with the same destination |
| HexGrid.TryMoveByOffset | src/Sylves/Hex/HexGrid.cs:175-197 | always succeeds and keeps the rotation; the identity rotation adds `destOffset - startOffset`; rotation 3 subtracts it |
| HexGrid.RotateOffsetPreservesZeroSum | src/Sylves/Hex/HexGrid.cs:179-194 | each rotation or reflection of an offset keeps x + y + z == 0 |
| HexGrid.RotateOffsetMatchesSideRotation | src/Sylves/Hex/HexGrid.cs:179-194 | re-expressing a side's offset under any of the twelve rotations gives the offset of the side that rotation sends it to |
| HexGrid.OffsetMoveAgreesWithMove | src/Sylves/Hex/HexGrid.cs:157-197 | moving by a side's offset under a rotation lands where a move across the rotated side does |
| HexGrid.Unbounded | src/Sylves/Hex/HexGrid.cs:107-121 | the Unbounded relative has no bound and the same orientation; an unbounded grid is its own |
| HexGrid.GetCells | src/Sylves/Hex/HexGrid.cs:143-147 | fails with GridInfinite exactly when unbounded; otherwise the cells are the bound |
| HexGrid.IndexCount | src/Sylves/Hex/HexGrid.cs:207-214 | always fails: GridInfinite when unbounded, NotImplemented otherwise |
| HexGrid.GetIndex | src/Sylves/Hex/HexGrid.cs:216-220 | always fails: GridInfinite when unbounded, NotImplemented otherwise |
| HexGrid.GetCellByIndex | src/Sylves/Hex/HexGrid.cs:222-225 | always fails with NotImplemented |
| HexGrid.IntersectBounds | src/Sylves/Hex/HexGrid.cs:252-258 | a null side yields the other bound |
| HexGrid.IntersectBoundsIsIntersection | src/Sylves/Hex/HexGrid.cs:252-258 | with null as the bound covering everything, the result contains a cell iff both operands do (given that HexBound's Intersect does) |
| HexGrid.UnionBounds | src/Sylves/Hex/HexGrid.cs:259-265 | a null side yields null |
| HexGrid.UnionBoundsCoversBoth | src/Sylves/Hex/HexGrid.cs:259-265 | with null as the bound covering everything, the result contains every cell either operand does (given that HexBound's Union does) |
| HexGrid.BoundBy | src/Sylves/Hex/HexGrid.cs:247-250 | keeps the orientation, and bounding by null leaves the grid unchanged |
| HexGrid.BoundByRestrictsMoves | src/Sylves/Hex/HexGrid.cs:247-258 | a move in the grid bounded by b succeeds iff it succeeds in the grid and b contains the destination |
| HexGrid.GetCellsInBounds | src/Sylves/Hex/HexGrid.cs:266-270 | fails with InfiniteBound exactly for the null bound |
| DefaultGridImpl.StubsThrowNotImplemented | src/Sylves/Grid/DefaultGridImpl.cs:23-71 | the default TryMoveByOffset and FindBasicPath always throw NotImplemented, so a grid using that FindBasicPath cannot transport |
| DefaultGridImpl.ParallelTransport | src/Sylves/Grid/DefaultGridImpl.cs:29-64 | the rotation returned is always the start rotation; without a path it returns false at the destination start cell; a throwing path finder propagates |
| DefaultGridImpl.Replay | src/Sylves/Grid/DefaultGridImpl.cs:45-63 | the loop never changes the rotation; an empty path succeeds where it stands |
| DefaultGridImpl.ReplayTraceSound | src/Sylves/Grid/DefaultGridImpl.cs:45-63 | a successful replay has a trace: every hop passed the cell-type check and moved by `Rotate(srcDir, rotation)` to the next cell, ending at the reported cell |
| DefaultGridImpl.ReplayTraceComplete | src/Sylves/Grid/DefaultGridImpl.cs:45-63 | conversely, along such a trace the replay succeeds and ends at the trace's last cell |
| DefaultGridImpl.ReplayFirstHop | src/Sylves/Grid/DefaultGridImpl.cs:45-59 | at each hop: a cell-type mismatch returns false at the cell reached so far before any move, a throwing move propagates, a refused move returns false, and only a successful move goes on with the rest of the path |
| DefaultGridImpl.ReplayAppend | src/Sylves/Grid/DefaultGridImpl.cs:45-63 | replaying `p + q` replays p, then q from where p ended, and stops at p's first failure |
| DefaultGridImpl.ReplayModesAgree | src/Sylves/Grid/DefaultGridImpl.cs:39-54 | when both grids really have one shared cell type, skipping the per-cell type check changes nothing |
| DefaultGridImpl.ReplayOwnPath | src/Sylves/Grid/DefaultGridImpl.cs:45-63 | replaying a grid's own valid path with a rotation that leaves each hop's side in place (such as a cell type's identity) walks the path to its end |
| DefaultGridImpl.SameGridTransportArrives | src/Sylves/Grid/DefaultGridImpl.cs:29-64 | transport within one grid along a valid path, with a rotation that leaves each hop's side in place (such as a cell type's identity), arrives at the path's destination |
| DefaultGridImpl.MismatchedSingleTypesFail | src/Sylves/Grid/DefaultGridImpl.cs:39-44 | two single-cell-type grids with different cell types return false before any move |
| DefaultGridImpl.DefaultBoundsAreWholeGrid | src/Sylves/Grid/DefaultGridImpl.cs:79-100 | GetBound, IntersectBounds and UnionBounds give null; BoundBy returns the grid; GetCellsInBounds returns the grid's cells whatever the bound |
| WrapModifier.New | src/Sylves/Grid/Modifiers/WrapModifier.cs:16-20 | the modifier keeps the underlying grid's Unbounded relative and the canonicalize function |
| WrapModifier.Rebind | src/Sylves/Grid/Modifiers/WrapModifier.cs:21-24 | rebinding wraps the new grid, takes its Unbounded relative, and keeps the canonicalize function |
| WrapModifier.TryMove | src/Sylves/Grid/Modifiers/WrapModifier.cs:34-44 | the move is made in the unbounded underlying grid; it fails with dest = default when that move fails or canonicalize gives null, else dest is the canonical cell; inverseDir and connection pass through |
| WrapModifier.TryMoveByOffset | src/Sylves/Grid/Modifiers/WrapModifier.cs:46-56 | same for offset moves: destRotation from the underlying grid, the cell canonicalised, failing iff canonicalize gives null |
| WrapModifier.AsGrid | src/Sylves/Grid/Modifiers/WrapModifier.cs:30 | the modifier is its own Unbounded relative |
| WrapModifier.MovesLandOnRepresentatives | src/Sylves/Grid/Modifiers/WrapModifier.cs:34-44 | when canonicalize picks representatives, every successful move lands on one |
| WrapModifier.AgreesWhereCanonical | src/Sylves/Grid/Modifiers/WrapModifier.cs:34-44 | where the underlying move reaches a canonical cell, the wrapped move is the underlying unbounded move |
| WrapModifier.OffsetMovesLandOnRepresentatives | src/Sylves/Grid/Modifiers/WrapModifier.cs:46-56 | when canonicalize picks representatives, every successful offset move lands on one |
| WrapModifier.OffsetAgreesWhereCanonical | src/Sylves/Grid/Modifiers/WrapModifier.cs:46-56 | where the underlying offset move reaches a canonical cell, the wrapped offset move is the underlying unbounded one |
| WrapModifier.RebindKeepsMoves | src/Sylves/Grid/Modifiers/WrapModifier.cs:16-24 | moves depend only on the underlying grid's Unbounded relative, never on its bound |
| XZModifier.ApplyRotateYZ | src/Sylves/Grid/Modifiers/XZModifier.cs:18 | RotateYZ fixes X and W, sends +Y to +Z and +Z to -Y |
| XZModifier.ApplyRotateZY | src/Sylves/Grid/Modifiers/XZModifier.cs:19 | RotateZY fixes X and W, sends +Z to +Y and +Y to -Z |
| XZModifier.RotationsUndoEachOther | src/Sylves/Grid/Modifiers/XZModifier.cs:18-19 | each matrix undoes the other on every vector |
| XZModifier.LeftMultiplicationsCancel | src/Sylves/Grid/Modifiers/XZModifier.cs:18-19 | multiplying any matrix by one and then the other gives it back |
| XZModifier.RotationsAreInverse | src/Sylves/Grid/Modifiers/XZModifier.cs:18-19 | RotateZY is the two-sided inverse of RotateYZ |
| XZModifier.GetCellTypes | src/Sylves/Grid/Modifiers/XZModifier.cs:41-44 | for a modifier as the constructor builds it, the listed types are the XZ variants of the underlying list |
| XZModifier.MapTypes | src/Sylves/Grid/Modifiers/XZModifier.cs:35 | the modified list has the same length and order, element-wise XZ variants |
| XZModifier.New | src/Sylves/Grid/Modifiers/XZModifier.cs:24-37 | fails (InvalidOperation) exactly for a single-cell-type grid not listing one type; the listed types are the XZ variants of the underlying list; a single type is stored iff the grid is single-cell-type |
| XZModifier.Rebind | src/Sylves/Grid/Modifiers/XZModifier.cs:51-54 | rebinding builds a fresh modifier with the same XZ map over the new grid, listing the XZ variants of its types, and fails exactly as the constructor does |
| XZModifier.CellTypesAreModified | src/Sylves/Grid/Modifiers/XZModifier.cs:24-49 | over a grid true to its single-type claim, every cell's type is the XZ variant of its underlying type, and the modified grid stays true to its claim |
| XZModifier.ListedTypesStayListed | src/Sylves/Grid/Modifiers/XZModifier.cs:41-49 | a cell's type is in GetCellTypes whenever its underlying type was in the underlying list |
| XZModifier.ParallelTransport | src/Sylves/Grid/Modifiers/XZModifier.cs:61-73 | whichever branch is taken, the rotation returned is the start rotation |
| XZModifier.MatchingLayersPeel | src/Sylves/Grid/Modifiers/XZModifier.cs:61-73 | between grids with equally many XZ layers, transport is the default transport between the grids under all layers |
| XZModifier.TransportPeelsLayers | src/Sylves/Grid/Modifiers/XZModifier.cs:61-73 | transport strips every XZ layer from the destination grid and as many from the source grid, then runs the default between what remains |
| XZModifier.XZOntoPlainUsesPlainGrids | src/Sylves/Grid/Modifiers/XZModifier.cs:69-72 | onto an XZ grid from a plain one, the default runs between the plain source and the plain grid under the layers |
| SquareBound.Intersect | src/Sylves/Grid/Square/SquareBound.cs:38-41 | the intersection contains a point iff both boxes do |
| SquareBound.Union | src/Sylves/Grid/Square/SquareBound.cs:42-45 | the union contains every point of either box |
| SquareBound.UnionIsLeast | src/Sylves/Grid/Square/SquareBound.cs:42-45 | any box containing two non-empty boxes contains their union |
| SquareBound.ContainsOverloadsAgree | src/Sylves/Grid/Square/SquareBound.cs:29-36 | the Cell and Vector2Int overloads agree, and the Cell overload ignores z |
| SquareBound.IntersectCommutesAndIsIdempotent | src/Sylves/Grid/Square/SquareBound.cs:38-41 | Intersect is commutative and idempotent |
| SquareBound.UnionCommutesAndIsIdempotent | src/Sylves/Grid/Square/SquareBound.cs:42-45 | Union is commutative and idempotent |
| SquareBound.Cells | src/Sylves/Grid/Square/SquareBound.cs:52-61 | enumeration yields exactly the contained cells with z = 0, each once, in x-major order, `size.x * size.y` of them for a non-empty box |

## Left out

- Floating-point geometry is not modelled:
  - `GetCellCenter`, `GetTRS`, `cellSize`, both `FindCell` overloads and `GetCellsIntersectsApprox` in HexGrid.cs;
  - `GetMatrix`, `GetCornerPosition`, `ReflectX/Y` and friends in HexPrismCellType.cs, and `GetMatrix` in SquareCellType.cs;
  - `GetTRS`, and the float conjugation `RotateZY * matrix * RotateYZ` in XZModifier's `FindCell`. Only the integer matrix pair is modelled.
- `HexGrid.GetBound` is not modelled. Its loop updates `max` with `Min`, which looks unintended, and nothing is claimed about it.
- `GetCellDirs` (DefaultGridImpl.cs and HexGrid.cs) is not modelled. Both forward to the cell type's own direction list. HexGrid's cell type is `NGonCellType.Get(6)`, whose direction list is not part of this model.
- HexGrid's constant properties (`Is2D`, `Is3D`, `IsPlanar`, `IsRepeating`, `IsOrientable`, `Unwrapped`), `GetDeformation` and `GetCellType` (always the hexagon, given as a parameter) are not modelled separately. `IsFinite` and `IsSingleCellType` are.
- Integer overflow is not modelled. Cells and rotations are unbounded integers; the source's `int` arithmetic stays far from its limits for grid coordinates.
- `XZModifier` matrices use integer entries. The source's `Matrix4x4` is single-precision float, but these two matrices are exact in either.
- `HexBound`, `TransformModifier`, `BaseModifier`, `XZCellModifier`, `HexRotation`, `SquareRotation`, `PTHexPrismDir` and `NGonCellType` are not part of this model. They appear only through the assumptions listed above.
- `DefaultGridImpl.ParallelTransport`: path finding is an oracle (`findBasicPath`). Only its validity is assumed, where a lemma needs it. A path is a finite sequence; a lazily enumerated or infinite path is not modelled.
- `HexPrismCellType.TryGetRotationThenRotate`: stated only for connections that `Rotate` can produce. These are 6-sided cap twists in 0..5 and 4-sided twists towards an equatorial side. `TryGetRotation` accepts other connections too, and no round trip is claimed for them.
- The reflection across the back cap of a flat-topped prism is unsupported in the source. It is modelled as the `NotImplemented` failure it throws.

=== FILE: base.dfy ===
/** Value types shared by every grid and cell type: cells, connections,
    the error kinds the library throws, and the integer helpers that make
    C#'s arithmetic explicit. */
module Base {

  /** Optional value; plays the role of C#'s `null` / `Nullable<T>`. */
  datatype Option<+T> = None | Some(value: T)

  /** The exceptions the modelled code throws. */
  datatype Error =
    | NotImplemented        // System.NotImplementedException
    | GridInfinite          // GridInfiniteException: a bound-dependent query on an unbounded grid
    | UnknownDir(dir: int)  // ArgumentException("Unknown dir ...")
    | InfiniteBound         // Exception("Cannot get cells in null bound as it is infinite")
    | InvalidOperation      // InvalidOperationException from First()/Single() on the wrong count

  /** A computation that either returns a value or throws. */
  datatype Result<+T> = Success(value: T) | Failure(error: Error)

  /** An integer 3-vector: `Cell` and `Vector3Int` share this shape. */
  datatype Vec3 = Vec3(x: int, y: int, z: int)

  type Cell = Vec3

  /** `default(Cell)`. */
  const Origin: Vec3 := Vec3(0, 0, 0)

  function Add(a: Vec3, b: Vec3): Vec3 { Vec3(a.x + b.x, a.y + b.y, a.z + b.z) }

  function Sub(a: Vec3, b: Vec3): Vec3 { Vec3(a.x - b.x, a.y - b.y, a.z - b.z) }

  function Neg(a: Vec3): Vec3 { Vec3(-a.x, -a.y, -a.z) }

  /** Cube-coordinate invariant of the hex family. */
  predicate ZeroSum(v: Vec3) { v.x + v.y + v.z == 0 }

  /** Whether a hexagon has a vertex or a flat edge at the top. */
  datatype HexOrientation = PointyTopped | FlatTopped

  /** How a cell's frame is twisted relative to its neighbour's across one face. */
  datatype Connection = Connection(mirror: bool, rotation: int, sides: int)

  /** `new Connection()`: every field at its default. */
  const DefaultConnection: Connection := Connection(false, 0, 0)

  /** C#'s `~r`, bitwise complement, on unbounded integers. */
  function Complement(r: int): int { -r - 1 }

  /** C#'s `a % b` for a positive divisor: the remainder takes the sign of `a`. */
  function CRem(a: int, b: int): (r: int)
    requires b > 0
    ensures -b < r < b
    ensures a >= 0 ==> r >= 0
    ensures a < 0 ==> r <= 0
  {
    if a >= 0 then a % b else -((-a) % b)
  }

  // ---------------------------------------------------------------------
  // Modular arithmetic with a symbolic modulus

  /** The Euclidean remainder is the unique r with x == q*n + r and 0 <= r < n. */
  lemma ModUnique(x: int, n: int, q: int, r: int)
    requires n > 0 && 0 <= r < n && x == q * n + r
    ensures x % n == r
  {
    var q' := x / n;
    assert x == q' * n + x % n;
    assert (q - q') * n == x % n - r;
    OnlyZeroMultipleIsSmall(q - q', n);
  }

  lemma OnlyZeroMultipleIsSmall(k: int, n: int)
    requires n > 0 && -n < k * n < n
    ensures k == 0
  {
  }

  /** Adding a multiple of n does not change the remainder. */
  lemma ModShift(x: int, k: int, n: int)
    requires n > 0
    ensures (x + k * n) % n == x % n
  {
    ModUnique(x + k * n, n, x / n + k, x % n);
  }

  lemma ModSmall(x: int, n: int)
    requires n > 0 && 0 <= x < n
    ensures x % n == x
  {
    ModUnique(x, n, 0, x);
  }

  /** Normalising C#'s truncated remainder by adding n gives the Euclidean one. */
  lemma CRemNormalize(x: int, n: int)
    requires n > 0
    ensures CRem(CRem(x, n) + n, n) == x % n
  {
    var c := CRem(x, n);
    if x >= 0 {
      ModShift(x, 1, n);
      assert c + n == x % n + n;
      ModShift(x % n, 1, n);
      ModSmall(x % n, n);
    } else {
      // c == -((-x) % n), and x == -(-x)
      var m := (-x) % n;
      assert -x == ((-x) / n) * n + m;
      assert x == (-((-x) / n)) * n - m;
      if m == 0 {
        ModUnique(x, n, -((-x) / n), 0);
        ModShift(0, 1, n);
        assert CRem(n, n) == n % n;
      } else {
        ModUnique(x, n, -((-x) / n) - 1, n - m);
        ModSmall(n - m, n);
      }
    }
  }
}

=== FILE: default_grid_impl.dfy ===
/** Default implementations of IGrid members, written in terms of more basic
    members of the grid. `rotate(ct, dir, rotation)` stands for the cell
    type's `Rotate(dir, rotation)`; cell types are compared by identity. */
module DefaultGridImpl {
  import opened Base
  import opened IGrid

  function TryMoveByOffset<CT>(grid: GridOps<CT>, startCell: Cell, startOffset: Vec3, destOffset: Vec3,
                               startRotation: int): Result<OffsetMove>
  {
    Failure(NotImplemented)
  }

  function FindBasicPath<CT>(grid: GridOps<CT>, startCell: Cell, destCell: Cell): Result<Option<seq<Hop>>>
  {
    Failure(NotImplemented)
  }

  /** Neither stub ever answers: a grid relying on them has no offset moves
      and no paths, and so (by ParallelTransport's contract) no transport. */
  lemma StubsThrowNotImplemented<CT>(rotate: (CT, int, int) -> int, grid: GridOps<CT>, dest: GridOps<CT>,
                                         a: Cell, b: Cell, c: Cell, startOffset: Vec3, destOffset: Vec3, rotation: int)
    requires grid.findBasicPath(a, b) == FindBasicPath(grid, a, b)
    ensures TryMoveByOffset(grid, a, startOffset, destOffset, rotation) == Failure(NotImplemented)
    ensures FindBasicPath(grid, a, b) == Failure(NotImplemented)
    ensures ParallelTransport(rotate, grid, a, b, dest, c, rotation) == Failure(NotImplemented)
  {
  }

  /** The source grid's path from `srcStartCell` to `srcDestCell` replayed on
      `destGrid` from `destStartCell`, each side turned by `startRotation`.
      The rotation is never updated along the way. */
  function ParallelTransport<CT(==)>(rotate: (CT, int, int) -> int,
                                     srcGrid: GridOps<CT>, srcStartCell: Cell, srcDestCell: Cell,
                                     destGrid: GridOps<CT>, destStartCell: Cell,
                                     startRotation: int): (r: Result<Transport>)
    ensures r.Success? ==> r.value.destRotation == startRotation
    ensures srcGrid.findBasicPath(srcStartCell, srcDestCell) == Success(None) ==>
      r == Success(Transport(false, destStartCell, startRotation))
    ensures srcGrid.findBasicPath(srcStartCell, srcDestCell).Failure? ==>
      r == Failure(srcGrid.findBasicPath(srcStartCell, srcDestCell).error)
  {
    match srcGrid.findBasicPath(srcStartCell, srcDestCell)
    case Failure(e) => Failure(e)
    case Success(None) => Success(Transport(false, destStartCell, startRotation))
    case Success(Some(path)) =>
      if !srcGrid.isSingleCellType || !destGrid.isSingleCellType then
        Replay(rotate, srcGrid, destGrid, None, path, destStartCell, startRotation)
      else if |srcGrid.cellTypes| == 0 || |destGrid.cellTypes| == 0 then
        Failure(InvalidOperation)
      else if srcGrid.cellTypes[0] != destGrid.cellTypes[0] then
        Success(Transport(false, destStartCell, startRotation))
      else
        Replay(rotate, srcGrid, destGrid, Some(srcGrid.cellTypes[0]), path, destStartCell, startRotation)
  }

  /** The cell type whose `Rotate` turns the hop's side: the fixed one when
      both grids have a single cell type, else the source cell's. */
  function HopType<CT>(srcGrid: GridOps<CT>, fixed: Option<CT>, hop: Hop): CT
  {
    if fixed.Some? then fixed.value else srcGrid.getCellType(hop.cell)
  }

  /** The loop of ParallelTransport, from the current destination cell. */
  function Replay<CT(==)>(rotate: (CT, int, int) -> int, srcGrid: GridOps<CT>, destGrid: GridOps<CT>,
                          fixed: Option<CT>, path: seq<Hop>, cell: Cell, rotation: int): (r: Result<Transport>)
    ensures r.Success? ==> r.value.destRotation == rotation
    ensures |path| == 0 ==> r == Success(Transport(true, cell, rotation))
    decreases |path|
  {
    if |path| == 0 then Success(Transport(true, cell, rotation))
    else
      var hop := path[0];
      if fixed.None? && srcGrid.getCellType(hop.cell) != destGrid.getCellType(cell) then
        Success(Transport(false, cell, rotation))
      else
        match destGrid.tryMove(cell, rotate(HopType(srcGrid, fixed, hop), hop.dir, rotation))
        case Failure(e) => Failure(e)
        case Success(m) =>
          if !m.ok then Success(Transport(false, m.dest, rotation))
          else Replay(rotate, srcGrid, destGrid, fixed, path[1..], m.dest, rotation)
  }

  /** The first hop decides whether the loop goes on: a cell-type mismatch
      (when types are checked) returns false at the current cell before any
      move, a thrown move propagates, a refused move returns false at the
      cell the move reported, and only a successful move continues from its
      destination with the rest of the path. */
  lemma ReplayFirstHop<CT>(rotate: (CT, int, int) -> int, srcGrid: GridOps<CT>, destGrid: GridOps<CT>,
                               fixed: Option<CT>, hop: Hop, rest: seq<Hop>, cell: Cell, rotation: int)
    ensures var r, m := Replay(rotate, srcGrid, destGrid, fixed, [hop] + rest, cell, rotation),
                        destGrid.tryMove(cell, rotate(HopType(srcGrid, fixed, hop), hop.dir, rotation));
      if fixed.None? && srcGrid.getCellType(hop.cell) != destGrid.getCellType(cell) then
        r == Success(Transport(false, cell, rotation))
      else if m.Failure? then r == Failure(m.error)
      else if !m.value.ok then r == Success(Transport(false, m.value.dest, rotation))
      else r == Replay(rotate, srcGrid, destGrid, fixed, rest, m.value.dest, rotation)
  {
    assert ([hop] + rest)[0] == hop;
    assert ([hop] + rest)[1..] == rest;
  }

  /** One hop replayed successfully from `from` to `to`. */
  ghost predicate Step<CT>(rotate: (CT, int, int) -> int, srcGrid: GridOps<CT>, destGrid: GridOps<CT>,
                               fixed: Option<CT>, hop: Hop, from: Cell, to: Cell, rotation: int)
  {
    && (fixed.Some? || srcGrid.getCellType(hop.cell) == destGrid.getCellType(from))
    && var m := destGrid.tryMove(from, rotate(HopType(srcGrid, fixed, hop), hop.dir, rotation));
       m.Success? && m.value.ok && m.value.dest == to
  }

  /** `cells` is the sequence of destination cells of a full replay of `path`. */
  ghost predicate Trace<CT>(rotate: (CT, int, int) -> int, srcGrid: GridOps<CT>, destGrid: GridOps<CT>,
                                fixed: Option<CT>, path: seq<Hop>, cells: seq<Cell>, rotation: int)
  {
    && |cells| == |path| + 1
    && forall i :: 0 <= i < |path| ==> Step(rotate, srcGrid, destGrid, fixed, path[i], cells[i], cells[i + 1], rotation)
  }

  /** A successful replay has a trace from the start cell to the reported cell. */
  lemma {:induction false} ReplayTraceSound<CT>(rotate: (CT, int, int) -> int, srcGrid: GridOps<CT>,
                                                    destGrid: GridOps<CT>, fixed: Option<CT>, path: seq<Hop>,
                                                    cell: Cell, rotation: int)
    requires Replay(rotate, srcGrid, destGrid, fixed, path, cell, rotation).Success?
    requires Replay(rotate, srcGrid, destGrid, fixed, path, cell, rotation).value.ok
    ensures exists cells :: (Trace(rotate, srcGrid, destGrid, fixed, path, cells, rotation) && cells[0] == cell &&
      cells[|path|] == Replay(rotate, srcGrid, destGrid, fixed, path, cell, rotation).value.destCell)
    decreases |path|
  {
    if |path| == 0 {
      assert Trace(rotate, srcGrid, destGrid, fixed, path, [cell], rotation);
    } else {
      var hop := path[0];
      var m := destGrid.tryMove(cell, rotate(HopType(srcGrid, fixed, hop), hop.dir, rotation)).value;
      ReplayTraceSound(rotate, srcGrid, destGrid, fixed, path[1..], m.dest, rotation);
      var rest :| Trace(rotate, srcGrid, destGrid, fixed, path[1..], rest, rotation) && rest[0] == m.dest &&
        rest[|path| - 1] == Replay(rotate, srcGrid, destGrid, fixed, path[1..], m.dest, rotation).value.destCell;
      var cells := [cell] + rest;
      forall i | 0 <= i < |path|
        ensures Step(rotate, srcGrid, destGrid, fixed, path[i], cells[i], cells[i + 1], rotation)
      {
        if i > 0 {
          assert path[i] == path[1..][i - 1];
        }
      }
      assert Trace(rotate, srcGrid, destGrid, fixed, path, cells, rotation);
    }
  }

  /** Conversely, along a trace the replay succeeds and ends at the trace's last cell. */
  lemma {:induction false} ReplayTraceComplete<CT>(rotate: (CT, int, int) -> int, srcGrid: GridOps<CT>,
                                                       destGrid: GridOps<CT>, fixed: Option<CT>, path: seq<Hop>,
                                                       cells: seq<Cell>, rotation: int)
    requires Trace(rotate, srcGrid, destGrid, fixed, path, cells, rotation)
    ensures Replay(rotate, srcGrid, destGrid, fixed, path, cells[0], rotation) ==
      Success(Transport(true, cells[|path|], rotation))
    decreases |path|
  {
    if |path| > 0 {
      assert Step(rotate, srcGrid, destGrid, fixed, path[0], cells[0], cells[1], rotation);
      var path', cells' := path[1..], cells[1..];
      forall i | 0 <= i < |path'|
        ensures Step(rotate, srcGrid, destGrid, fixed, path'[i], cells'[i], cells'[i + 1], rotation)
      {
        assert Step(rotate, srcGrid, destGrid, fixed, path[i + 1], cells[i + 1], cells[i + 2], rotation);
      }
      ReplayTraceComplete(rotate, srcGrid, destGrid, fixed, path', cells', rotation);
    }
  }

  /** Replaying a concatenated path replays the first part, then, if that
      reached its end, the second part from where it stopped. */
  lemma {:induction false} ReplayAppend<CT>(rotate: (CT, int, int) -> int, srcGrid: GridOps<CT>,
                                                destGrid: GridOps<CT>, fixed: Option<CT>, p: seq<Hop>, q: seq<Hop>,
                                                cell: Cell, rotation: int)
    ensures Replay(rotate, srcGrid, destGrid, fixed, p + q, cell, rotation) ==
      match Replay(rotate, srcGrid, destGrid, fixed, p, cell, rotation)
      case Failure(e) => Failure(e)
      case Success(t) =>
        if t.ok then Replay(rotate, srcGrid, destGrid, fixed, q, t.destCell, rotation) else Success(t)
    decreases |p|
  {
    if |p| == 0 {
      assert p + q == q;
    } else {
      assert (p + q)[0] == p[0];
      assert (p + q)[1..] == p[1..] + q;
      var hop := p[0];
      var mv := destGrid.tryMove(cell, rotate(HopType(srcGrid, fixed, hop), hop.dir, rotation));
      if mv.Success? && mv.value.ok {
        ReplayAppend(rotate, srcGrid, destGrid, fixed, p[1..], q, mv.value.dest, rotation);
      }
    }
  }

  /** When both grids really have a single, shared cell type, skipping the
      per-cell type check changes nothing. */
  lemma {:induction false} ReplayModesAgree<CT>(rotate: (CT, int, int) -> int, srcGrid: GridOps<CT>,
                                                    destGrid: GridOps<CT>, ct: CT, path: seq<Hop>,
                                                    cell: Cell, rotation: int)
    requires forall c :: srcGrid.getCellType(c) == ct
    requires forall c :: destGrid.getCellType(c) == ct
    ensures Replay(rotate, srcGrid, destGrid, Some(ct), path, cell, rotation) ==
      Replay(rotate, srcGrid, destGrid, None, path, cell, rotation)
    decreases |path|
  {
    if |path| > 0 {
      var hop := path[0];
      assert HopType(srcGrid, Some(ct), hop) == HopType(srcGrid, None, hop);
      var mv := destGrid.tryMove(cell, rotate(ct, hop.dir, rotation));
      if mv.Success? && mv.value.ok {
        ReplayModesAgree(rotate, srcGrid, destGrid, ct, path[1..], mv.value.dest, rotation);
      }
    }
  }

  /** `rotation` leaves the side of every hop of `path` where it is, for the
      cell type the replay looks up for that hop. */
  ghost predicate FixesPathSides<CT>(rotate: (CT, int, int) -> int, g: GridOps<CT>, fixed: Option<CT>,
                                     path: seq<Hop>, rotation: int)
  {
    forall i :: 0 <= i < |path| ==> rotate(HopType(g, fixed, path[i]), path[i].dir, rotation) == path[i].dir
  }

  /** Replaying a grid's own valid path from its start, with a rotation that
      fixes the path's sides (the identity rotation of a cell type, say),
      walks the path again. */
  lemma {:induction false} ReplayOwnPath<CT>(rotate: (CT, int, int) -> int, g: GridOps<CT>,
                                                 fixed: Option<CT>, path: seq<Hop>, end: Cell, rotation: int)
    requires FixesPathSides(rotate, g, fixed, path, rotation)
    requires |path| > 0 && ValidPath(g, path, path[0].cell, end)
    ensures Replay(rotate, g, g, fixed, path, path[0].cell, rotation) == Success(Transport(true, end, rotation))
    decreases |path|
  {
    var hop := path[0];
    assert rotate(HopType(g, fixed, hop), hop.dir, rotation) == hop.dir;
    assert HopArrives(g, path, 0, end);
    if |path| > 1 {
      var rest := path[1..];
      forall i | 0 <= i < |rest|
        ensures HopArrives(g, rest, i, end)
        ensures rotate(HopType(g, fixed, rest[i]), rest[i].dir, rotation) == rest[i].dir
      {
        assert HopArrives(g, path, i + 1, end);
        assert rest[i] == path[i + 1];
      }
      assert ValidPath(g, rest, rest[0].cell, end);
      ReplayOwnPath(rotate, g, fixed, rest, end, rotation);
    } else {
      assert path[1..] == [];
    }
  }

  /** Transporting within one grid along its own valid path, with a rotation
      that fixes the path's sides, arrives at the path's destination. */
  lemma SameGridTransportArrives<CT>(rotate: (CT, int, int) -> int, g: GridOps<CT>,
                                         start: Cell, dest: Cell, rotation: int)
    requires g.isSingleCellType ==> |g.cellTypes| > 0
    requires g.findBasicPath(start, dest).Success? && g.findBasicPath(start, dest).value.Some?
    requires ValidPath(g, g.findBasicPath(start, dest).value.value, start, dest)
    requires FixesPathSides(rotate, g, if g.isSingleCellType then Some(g.cellTypes[0]) else None,
                            g.findBasicPath(start, dest).value.value, rotation)
    ensures ParallelTransport(rotate, g, start, dest, g, start, rotation) == Success(Transport(true, dest, rotation))
  {
    var path := g.findBasicPath(start, dest).value.value;
    var fixed := if g.isSingleCellType then Some(g.cellTypes[0]) else None;
    if |path| > 0 {
      ReplayOwnPath(rotate, g, fixed, path, dest, rotation);
    }
  }

  /** Two single-cell-type grids whose listed cell types differ never transport. */
  lemma MismatchedSingleTypesFail<CT>(rotate: (CT, int, int) -> int,
                                          srcGrid: GridOps<CT>, srcStartCell: Cell, srcDestCell: Cell,
                                          destGrid: GridOps<CT>, destStartCell: Cell, startRotation: int)
    requires srcGrid.isSingleCellType && destGrid.isSingleCellType
    requires srcGrid.findBasicPath(srcStartCell, srcDestCell).Success?
    requires srcGrid.findBasicPath(srcStartCell, srcDestCell).value.Some?
    requires |srcGrid.cellTypes| > 0 && |destGrid.cellTypes| > 0
    requires srcGrid.cellTypes[0] != destGrid.cellTypes[0]
    ensures ParallelTransport(rotate, srcGrid, srcStartCell, srcDestCell, destGrid, destStartCell, startRotation) ==
      Success(Transport(false, destStartCell, startRotation))
  {
  }

  // ---------------------------------------------------------------------
  // Bounds: the default supports none, and `None` is the bound covering the whole grid.

  function GetBound<CT, B>(grid: GridOps<CT>, cells: seq<Cell>): Option<B>
  {
    None
  }

  function BoundBy<CT, B>(grid: GridOps<CT>, bound: Option<B>): GridOps<CT>
  {
    grid
  }

  function IntersectBounds<CT, B>(grid: GridOps<CT>, bound: Option<B>, other: Option<B>): Option<B>
  {
    None
  }

  function UnionBounds<CT, B>(grid: GridOps<CT>, bound: Option<B>, other: Option<B>): Option<B>
  {
    None
  }

  function GetCellsInBounds<CT, B>(grid: GridOps<CT>, bound: Option<B>): Result<seq<Cell>>
  {
    grid.cells
  }

  /** The default bounds agree with one another: whatever bound the grid is
      cut down to, the grid, its cells and its bound stay the whole grid. */
  lemma DefaultBoundsAreWholeGrid<CT, B>(grid: GridOps<CT>, cells: seq<Cell>, a: Option<B>, b: Option<B>)
    ensures GetBound<CT, B>(grid, cells).None?
    ensures IntersectBounds<CT, B>(grid, a, b).None? && UnionBounds<CT, B>(grid, a, b).None?
    ensures BoundBy(grid, a) == grid
    ensures BoundBy(grid, IntersectBounds<CT, B>(grid, a, b)) == BoundBy(BoundBy(grid, a), b)
    ensures GetCellsInBounds(grid, a) == grid.cells
  {
  }
}

=== FILE: dihedral.dfy ===
/** The symmetry group of a regular n-gon, in the library's signed-integer
    encoding: `k` (0 <= k < n) is the rotation by k steps and `~k` is the
    reflection with index k. A rotation acts on a side index `d` by
    `d |-> (d + k) mod n` and a reflection `~k` by `d |-> (k - d) mod n`.
    Square cells use n = 4 and the hex faces of a hex prism use n = 6. */
module Dihedral {
  import opened Base

  predicate IsReflection(r: int) { r < 0 }

  /** The index `k` of a rotation `k` or of a reflection `~k`. */
  function Index(r: int): int { if r < 0 then Complement(r) else r }

  /** One of the 2n encodings `0..n-1` or `~0..~(n-1)`. */
  predicate IsValid(n: int, r: int) { -n <= r < n }

  /** `x mod n` for `x` within one period of `0..n-1`. */
  function Wrap(n: int, x: int): (e: int)
    requires n > 0 && -n <= x < 2 * n
    ensures 0 <= e < n
    ensures e == x || e == x - n || e == x + n
  {
    if x >= n then x - n else if x < 0 then x + n else x
  }

  /** `0..n-1`, followed by `~0..~(n-1)` when reflections are included. */
  function Rotations(n: nat, includeReflections: bool): (rs: seq<int>)
    ensures |rs| == if includeReflections then 2 * n else n
    ensures forall i :: 0 <= i < n ==> rs[i] == i
    ensures includeReflections ==> forall i :: 0 <= i < n ==> rs[n + i] == Complement(i)
  {
    seq(n, i => i) + (if includeReflections then seq(n, i => Complement(i)) else [])
  }

  /** A valid rotation applied to an in-range side index. */
  function Turn(n: int, r: int, d: int): (e: int)
    requires n > 0 && IsValid(n, r) && 0 <= d < n
    ensures 0 <= e < n
  {
    if r >= 0 then Wrap(n, d + r) else Wrap(n, Complement(r) - d)
  }

  /** The rotation `r` reduced to one of the 2n valid encodings. */
  function Normalize(n: int, r: int): (v: int)
    requires n > 0
    ensures IsValid(n, v) && IsReflection(v) == IsReflection(r)
  {
    if r >= 0 then r % n else Complement(Complement(r) % n)
  }

  /** The rotation `r` applied to side index `d`: `(d + k) mod n` for a
      rotation `k`, `(k - d) mod n` for a reflection `~k`. */
  function Act(n: int, r: int, d: int): (e: int)
    requires n > 0
    ensures 0 <= e < n
  {
    Turn(n, Normalize(n, r), d % n)
  }

  /** The rotation `r` applied to corner index `c`. Corner `c` lies between
      sides `c` and `c + 1`, so a rotation moves corners as it moves sides,
      while the reflection `~k`, which sends side `d` to `k - d`, sends
      corner `c` to `(k - 1 - c) mod n`. */
  function ActCorner(n: int, r: int, c: int): (e: int)
    requires n > 0
    ensures 0 <= e < n
  {
    if r >= 0 then Act(n, r, c) else Wrap(n, Index(Normalize(n, r)) - 1 - c % n)
  }

  /** Composition of two valid rotations: `a` applied after `b`. */
  function Multiply(n: int, a: int, b: int): (c: int)
    requires n > 0 && IsValid(n, a) && IsValid(n, b)
    ensures IsValid(n, c)
    ensures IsReflection(c) <==> IsReflection(a) != IsReflection(b)
  {
    if a >= 0 && b >= 0 then Wrap(n, a + b)
    else if a >= 0 then Complement(Wrap(n, a + Complement(b)))
    else if b >= 0 then Complement(Wrap(n, Complement(a) - b))
    else Wrap(n, Complement(a) - Complement(b))
  }

  /** Inverse of a valid rotation: `k |-> (n - k) mod n`; a reflection is its own inverse. */
  function Invert(n: int, a: int): (c: int)
    requires n > 0 && IsValid(n, a)
    ensures IsValid(n, c)
    ensures IsReflection(c) <==> IsReflection(a)
  {
    if a >= 0 then Wrap(n, n - a) else a
  }

  const Identity: int := 0

  // ---------------------------------------------------------------------
  // The listing

  /** The listing holds exactly the valid encodings (or the rotations), each once. */
  lemma RotationsListing(n: nat, includeReflections: bool)
    ensures forall r :: r in Rotations(n, includeReflections) <==>
      (if includeReflections then IsValid(n, r) else 0 <= r < n)
    ensures forall i, j :: 0 <= i < j < |Rotations(n, includeReflections)| ==>
      Rotations(n, includeReflections)[i] != Rotations(n, includeReflections)[j]
  {
    var rs := Rotations(n, includeReflections);
    forall r | (if includeReflections then IsValid(n, r) else 0 <= r < n)
      ensures r in rs
    {
      if r >= 0 {
        assert rs[r] == r;
      } else {
        assert rs[n + Complement(r)] == r;
      }
    }
  }

  // ---------------------------------------------------------------------
  // The action

  /** On a valid rotation and an in-range side, the action needs no reduction. */
  lemma ActInRange(n: int, r: int, d: int)
    requires n > 0 && IsValid(n, r) && 0 <= d < n
    ensures Act(n, r, d) == Turn(n, r, d)
  {
    ModSmall(d, n);
    ModSmall(Index(r), n);
  }

  /** The action depends on the side only modulo n. */
  lemma ActReduces(n: int, r: int, d: int)
    requires n > 0
    ensures Act(n, r, d) == Act(n, r, d % n)
  {
    ModSmall(d % n, n);
  }

  /** Multiply is composition of the actions. */
  lemma ActMultiply(n: int, a: int, b: int, d: int)
    requires n > 0 && IsValid(n, a) && IsValid(n, b)
    ensures Act(n, Multiply(n, a, b), d) == Act(n, a, Act(n, b, d))
  {
    var d' := d % n;
    ActReduces(n, Multiply(n, a, b), d);
    ActReduces(n, b, d);
    ActInRange(n, Multiply(n, a, b), d');
    ActInRange(n, b, d');
    ActInRange(n, a, Turn(n, b, d'));
    TurnMultiply(n, a, b, d');
  }

  lemma TurnMultiply(n: int, a: int, b: int, d: int)
    requires n > 0 && IsValid(n, a) && IsValid(n, b) && 0 <= d < n
    ensures Turn(n, Multiply(n, a, b), d) == Turn(n, a, Turn(n, b, d))
  {
  }

  /** The identity fixes every side. */
  lemma ActIdentity(n: int, d: int)
    requires n > 0 && 0 <= d < n
    ensures Act(n, Identity, d) == d
  {
    ActInRange(n, Identity, d);
  }

  /** The corner action is the one the side action induces: the two sides
      bounding corner `c` are sent to the two sides bounding its image, in
      the same order by a rotation and in swapped order by a reflection. */
  lemma CornerBetweenSides(n: int, r: int, c: int)
    requires n > 0 && IsValid(n, r) && 0 <= c < n
    ensures var e := ActCorner(n, r, c);
      !IsReflection(r) ==> Act(n, r, c) == e && Act(n, r, Wrap(n, c + 1)) == Wrap(n, e + 1)
    ensures var e := ActCorner(n, r, c);
      IsReflection(r) ==> Act(n, r, c) == Wrap(n, e + 1) && Act(n, r, Wrap(n, c + 1)) == e
  {
    ActInRange(n, r, c);
    ActInRange(n, r, Wrap(n, c + 1));
    ModSmall(c, n);
    ModSmall(Index(r), n);
  }

  /** For n >= 3 a valid rotation is determined by where it sends sides 0 and 1. */
  lemma ActIsFaithful(n: int, a: int, b: int)
    requires n >= 3 && IsValid(n, a) && IsValid(n, b)
    requires Act(n, a, 0) == Act(n, b, 0) && Act(n, a, 1) == Act(n, b, 1)
    ensures a == b
  {
    ActInRange(n, a, 0);
    ActInRange(n, b, 0);
    ActInRange(n, a, 1);
    ActInRange(n, b, 1);
  }

  // ---------------------------------------------------------------------
  // Group laws

  lemma IdentityLaws(n: int, a: int)
    requires n > 0 && IsValid(n, a)
    ensures Multiply(n, Identity, a) == a
    ensures Multiply(n, a, Identity) == a
  {
  }

  lemma InverseLaws(n: int, a: int)
    requires n > 0 && IsValid(n, a)
    ensures Multiply(n, a, Invert(n, a)) == Identity
    ensures Multiply(n, Invert(n, a), a) == Identity
  {
  }

  lemma Associativity(n: int, a: int, b: int, c: int)
    requires n >= 3 && IsValid(n, a) && IsValid(n, b) && IsValid(n, c)
    ensures Multiply(n, Multiply(n, a, b), c) == Multiply(n, a, Multiply(n, b, c))
  {
    var l, r := Multiply(n, Multiply(n, a, b), c), Multiply(n, a, Multiply(n, b, c));
    forall d | 0 <= d < 2
      ensures Act(n, l, d) == Act(n, r, d)
    {
      ActMultiply(n, Multiply(n, a, b), c, d);
      ActMultiply(n, a, b, Act(n, c, d));
      ActMultiply(n, b, c, d);
      ActMultiply(n, a, Multiply(n, b, c), d);
    }
    ActIsFaithful(n, l, r);
  }
}

=== FILE: hex_grid.dfy ===
/** A regular 2d grid of hexagons in cube coordinates (x + y + z == 0). The
    six sides are numbered in the order UpRight, Up, UpLeft, DownLeft, Down,
    DownRight, which serves both the flat- and the pointy-topped orientation.
    The grid's bound is a HexBound, seen here only through `BoundOps`. */
module HexGrid {
  import opened Base
  import opened IGrid
  import Dihedral

  /** What the grid asks of its bound type: containment, intersection, union. */
  datatype BoundOps<!B> = BoundOps(
    contains: (B, Cell) -> bool,
    intersect: (B, B) -> B,
    union: (B, B) -> B)

  /** `None` is the unbounded grid. */
  datatype HexGrid<B> = HexGrid(orientation: HexOrientation, bound: Option<B>)

  const HexSides: int := 6

  /** Containment where `None` is the bound covering every cell. */
  predicate InBound<B>(ops: BoundOps<B>, bound: Option<B>, cell: Cell)
  {
    bound.None? || ops.contains(bound.value, cell)
  }

  /** The offset to the neighbour across side `dir`, for the six known sides. */
  function DirOffset(dir: int): Option<Vec3>
  {
    if dir == 0 then Some(Vec3(1, 0, -1))
    else if dir == 1 then Some(Vec3(0, 1, -1))
    else if dir == 2 then Some(Vec3(-1, 1, 0))
    else if dir == 3 then Some(Vec3(-1, 0, 1))
    else if dir == 4 then Some(Vec3(0, -1, 1))
    else if dir == 5 then Some(Vec3(1, -1, 0))
    else None
  }

  /** The side of the destination cell that faces back, `(3 + dir) % 6`. */
  function InverseDir(dir: int): int { CRem(3 + dir, 6) }

  function TryMove<B>(g: HexGrid<B>, ops: BoundOps<B>, cell: Cell, dir: int): (r: Result<Move>)
    ensures r.Failure? <==> !(0 <= dir < 6)
    ensures r.Failure? ==> r.error == UnknownDir(dir)
    ensures r.Success? ==> DirOffset(dir).Some? && r.value.dest == Add(cell, DirOffset(dir).value)
    ensures r.Success? ==> r.value.inverseDir == InverseDir(dir)
    ensures r.Success? ==> r.value.connection == DefaultConnection
    ensures r.Success? ==> (r.value.ok <==> InBound(ops, g.bound, r.value.dest))
  {
    match DirOffset(dir)
    case None => Failure(UnknownDir(dir))
    case Some(offset) =>
      var dest := Add(cell, offset);
      Success(Move(InBound(ops, g.bound, dest), dest, InverseDir(dir), DefaultConnection))
  }

  /** The offset re-expressed in the frame of `rotation`: a reflection first
      swaps x and z and negates, then the rotation index permutes the axes. */
  function RotateOffset(offset: Vec3, rotation: int): Vec3
  {
    var o := if rotation < 0 then Vec3(-offset.z, -offset.y, -offset.x) else offset;
    var ir := if rotation < 0 then Complement(rotation) else rotation;
    if ir == 1 then Vec3(-o.y, -o.z, -o.x)
    else if ir == 2 then Vec3(o.z, o.x, o.y)
    else if ir == 3 then Vec3(-o.x, -o.y, -o.z)
    else if ir == 4 then Vec3(o.y, o.z, o.x)
    else if ir == 5 then Vec3(-o.z, -o.x, -o.y)
    else o
  }

  /** Moving by an offset always succeeds and keeps the rotation. */
  function TryMoveByOffset<B>(g: HexGrid<B>, startCell: Cell, startOffset: Vec3, destOffset: Vec3,
                              startRotation: int): (r: OffsetMove)
    ensures r.ok && r.destRotation == startRotation
    ensures startRotation == 0 ==> r.destCell == Add(startCell, Sub(destOffset, startOffset))
    ensures startRotation == 3 ==> r.destCell == Add(startCell, Neg(Sub(destOffset, startOffset)))
  {
    OffsetMove(true, Add(startCell, RotateOffset(Sub(destOffset, startOffset), startRotation)), startRotation)
  }

  /** The same grid without its bound. */
  function Unbounded<B>(g: HexGrid<B>): (r: HexGrid<B>)
    ensures r.bound.None? && r.orientation == g.orientation
    ensures g.bound.None? ==> r == g
  {
    if g.bound.None? then g else HexGrid(g.orientation, None)
  }

  predicate IsFinite<B>(g: HexGrid<B>) { g.bound.Some? }

  /** The cells of a bounded grid are its bound (a HexBound enumerates its cells). */
  function GetCells<B>(g: HexGrid<B>): (r: Result<B>)
    ensures r.Failure? <==> !IsFinite(g)
    ensures r.Failure? ==> r.error == GridInfinite
    ensures r.Success? ==> Some(r.value) == g.bound
  {
    if g.bound.None? then Failure(GridInfinite) else Success(g.bound.value)
  }

  /** Bounded or not, indexing is unimplemented; the unbounded check comes first. */
  function IndexCount<B>(g: HexGrid<B>): (r: Result<int>)
    ensures r.Failure?
    ensures r.error == if IsFinite(g) then NotImplemented else GridInfinite
  {
    if g.bound.None? then Failure(GridInfinite) else Failure(NotImplemented)
  }

  function GetIndex<B>(g: HexGrid<B>, cell: Cell): (r: Result<int>)
    ensures r.Failure?
    ensures r.error == if IsFinite(g) then NotImplemented else GridInfinite
  {
    if g.bound.None? then Failure(GridInfinite) else Failure(NotImplemented)
  }

  function GetCellByIndex<B>(g: HexGrid<B>, index: int): (r: Result<Cell>)
    ensures r == Failure(NotImplemented)
  {
    Failure(NotImplemented)
  }

  function IntersectBounds<B>(ops: BoundOps<B>, bound: Option<B>, other: Option<B>): (r: Option<B>)
    ensures bound.None? ==> r == other
    ensures other.None? ==> r == bound
  {
    if bound.None? then other
    else if other.None? then bound
    else Some(ops.intersect(bound.value, other.value))
  }

  function UnionBounds<B>(ops: BoundOps<B>, bound: Option<B>, other: Option<B>): (r: Option<B>)
    ensures bound.None? || other.None? ==> r.None?
  {
    if bound.None? then None
    else if other.None? then None
    else Some(ops.union(bound.value, other.value))
  }

  /** The grid restricted to `bound` as well as its own bound. */
  function BoundBy<B>(g: HexGrid<B>, ops: BoundOps<B>, bound: Option<B>): (r: HexGrid<B>)
    ensures r.orientation == g.orientation
    ensures bound.None? ==> r == g
  {
    HexGrid(g.orientation, IntersectBounds(ops, g.bound, bound))
  }

  function GetCellsInBounds<B>(bound: Option<B>): (r: Result<B>)
    ensures r.Failure? <==> bound.None?
    ensures r.Failure? ==> r.error == InfiniteBound
  {
    if bound.None? then Failure(InfiniteBound) else Success(bound.value)
  }

  /** The grid as IGrid: a single cell type (the hexagon), and the same grid
      without its bound as the Unbounded relative. Path finding is supplied. */
  function AsGrid<B, CT>(g: HexGrid<B>, ops: BoundOps<B>, hexagon: CT,
                         enumerate: B -> seq<Cell>,
                         findBasicPath: (Cell, Cell) -> Result<Option<seq<Hop>>>): Grid<CT>
  {
    Grid(Ops(g, ops, hexagon, enumerate, findBasicPath),
         Ops(Unbounded(g), ops, hexagon, enumerate, findBasicPath))
  }

  function Ops<B, CT>(g: HexGrid<B>, ops: BoundOps<B>, hexagon: CT,
                      enumerate: B -> seq<Cell>,
                      findBasicPath: (Cell, Cell) -> Result<Option<seq<Hop>>>): GridOps<CT>
  {
    GridOps(
      (cell, dir) => TryMove(g, ops, cell, dir),
      (cell, startOffset, destOffset, rotation) => Success(TryMoveByOffset(g, cell, startOffset, destOffset, rotation)),
      cell => hexagon,
      true,
      [hexagon],
      match GetCells(g) case Success(b) => Success(enumerate(b)) case Failure(e) => Failure(e),
      findBasicPath)
  }

  // ---------------------------------------------------------------------
  // Moves

  /** Each known side moves to a neighbour in cube coordinates: the offset is
      non-zero and sums to zero. */
  lemma OffsetsAreCubeSteps(dir: int)
    requires 0 <= dir < 6
    ensures DirOffset(dir).Some?
    ensures ZeroSum(DirOffset(dir).value) && DirOffset(dir).value != Origin
  {
  }

  /** The inverse side of the inverse side is the side, and the two offsets cancel. */
  lemma InverseDirPairs(dir: int)
    requires 0 <= dir < 6
    ensures 0 <= InverseDir(dir) < 6
    ensures InverseDir(InverseDir(dir)) == dir
    ensures DirOffset(InverseDir(dir)).value == Neg(DirOffset(dir).value)
  {
  }

  /** Moving along a side and then along the reported inverse side returns to the start. */
  lemma MoveThenInverseReturns<B>(g: HexGrid<B>, ops: BoundOps<B>, cell: Cell, dir: int)
    requires 0 <= dir < 6
    ensures var m := TryMove(g, ops, cell, dir).value;
      TryMove(g, ops, m.dest, m.inverseDir).Success? &&
      TryMove(g, ops, m.dest, m.inverseDir).value.dest == cell
  {
    InverseDirPairs(dir);
  }

  /** Through `AsGrid`, a one-hop path is valid exactly when the bound
      admits the neighbour, and on the Unbounded relative the hop there and
      the hop back across the reported inverse side form a valid loop. */
  lemma AsGridPaths<B, CT>(g: HexGrid<B>, ops: BoundOps<B>, hexagon: CT, enumerate: B -> seq<Cell>,
                           findBasicPath: (Cell, Cell) -> Result<Option<seq<Hop>>>, cell: Cell, dir: int)
    requires 0 <= dir < 6
    ensures var grid, dest := AsGrid(g, ops, hexagon, enumerate, findBasicPath), Add(cell, DirOffset(dir).value);
      ValidPath(grid.ops, [Hop(cell, dir)], cell, dest) <==> InBound(ops, g.bound, dest)
    ensures var grid, dest := AsGrid(g, ops, hexagon, enumerate, findBasicPath), Add(cell, DirOffset(dir).value);
      ValidPath(grid.unbounded, [Hop(cell, dir), Hop(dest, InverseDir(dir))], cell, cell)
  {
    var grid := AsGrid(g, ops, hexagon, enumerate, findBasicPath);
    var dest := Add(cell, DirOffset(dir).value);
    var there, back := TryMove(Unbounded(g), ops, cell, dir), TryMove(Unbounded(g), ops, dest, InverseDir(dir));
    assert grid.ops.tryMove(cell, dir) == TryMove(g, ops, cell, dir);
    assert ValidPath(grid.ops, [Hop(cell, dir)], cell, dest) <==> HopArrives(grid.ops, [Hop(cell, dir)], 0, dest);
    assert grid.unbounded.tryMove(cell, dir) == there;
    assert grid.unbounded.tryMove(dest, InverseDir(dir)) == back;
    MoveThenInverseReturns(Unbounded(g), ops, cell, dir);
    assert there.value.dest == dest && back.value.dest == cell;
    var path := [Hop(cell, dir), Hop(dest, InverseDir(dir))];
    assert HopArrives(grid.unbounded, path, 0, cell);
    assert HopArrives(grid.unbounded, path, 1, cell);
  }

  /** Moves keep cells on the plane x + y + z == 0. */
  lemma MovePreservesCubeInvariant<B>(g: HexGrid<B>, ops: BoundOps<B>, cell: Cell, dir: int)
    requires ZeroSum(cell)
    requires TryMove(g, ops, cell, dir).Success?
    ensures ZeroSum(TryMove(g, ops, cell, dir).value.dest)
  {
  }

  /** An unbounded grid never blocks a known side. */
  lemma UnboundedMovesSucceed<B>(g: HexGrid<B>, ops: BoundOps<B>, cell: Cell, dir: int)
    requires 0 <= dir < 6
    ensures TryMove(Unbounded(g), ops, cell, dir).Success?
    ensures TryMove(Unbounded(g), ops, cell, dir).value.ok
    ensures TryMove(Unbounded(g), ops, cell, dir).value.dest == TryMove(g, ops, cell, dir).value.dest
  {
  }

  // ---------------------------------------------------------------------
  // Offsets and rotations

  /** Re-expressing an offset keeps it on the plane x + y + z == 0. */
  lemma RotateOffsetPreservesZeroSum(offset: Vec3, rotation: int)
    requires ZeroSum(offset)
    ensures ZeroSum(RotateOffset(offset, rotation))
  {
  }

  /** Re-expressing a side's offset under a rotation gives the offset of the
      side that the rotation sends it to: the offset arithmetic and the
      hexagon's rotation group agree. */
  lemma RotateOffsetMatchesSideRotation(dir: int, rotation: int)
    requires 0 <= dir < 6 && Dihedral.IsValid(HexSides, rotation)
    ensures RotateOffset(DirOffset(dir).value, rotation) ==
      DirOffset(Dihedral.Act(HexSides, rotation, dir)).value
  {
    Dihedral.ActInRange(HexSides, rotation, dir);
    var k := Dihedral.Index(rotation);
    assert 0 <= k < 6;
    if rotation >= 0 {
      if k == 0 {} else if k == 1 {} else if k == 2 {} else if k == 3 {} else if k == 4 {} else {}
    } else {
      if k == 0 {} else if k == 1 {} else if k == 2 {} else if k == 3 {} else if k == 4 {} else {}
    }
  }

  /** So moving by the offset of side `dir` under `rotation` lands where a
      move across the rotated side does. */
  lemma OffsetMoveAgreesWithMove<B>(g: HexGrid<B>, ops: BoundOps<B>, cell: Cell, dir: int, rotation: int)
    requires 0 <= dir < 6 && Dihedral.IsValid(HexSides, rotation)
    ensures TryMoveByOffset(g, cell, Origin, DirOffset(dir).value, rotation).destCell ==
      TryMove(g, ops, cell, Dihedral.Act(HexSides, rotation, dir)).value.dest
  {
    RotateOffsetMatchesSideRotation(dir, rotation);
    assert Sub(DirOffset(dir).value, Origin) == DirOffset(dir).value;
  }

  // ---------------------------------------------------------------------
  // Bounds

  /** With `None` as the bound covering everything, IntersectBounds is
      intersection, provided the bound type's own intersect is. */
  lemma IntersectBoundsIsIntersection<B>(ops: BoundOps<B>, a: Option<B>, b: Option<B>, cell: Cell)
    requires forall x, y, c :: ops.contains(ops.intersect(x, y), c) <==> ops.contains(x, c) && ops.contains(y, c)
    ensures InBound(ops, IntersectBounds(ops, a, b), cell) <==> InBound(ops, a, cell) && InBound(ops, b, cell)
  {
  }

  /** ... and UnionBounds covers both operands, provided the bound type's union does. */
  lemma UnionBoundsCoversBoth<B>(ops: BoundOps<B>, a: Option<B>, b: Option<B>, cell: Cell)
    requires forall x, y, c :: ops.contains(x, c) || ops.contains(y, c) ==> ops.contains(ops.union(x, y), c)
    ensures InBound(ops, a, cell) || InBound(ops, b, cell) ==> InBound(ops, UnionBounds(ops, a, b), cell)
  {
  }

  /** A grid restricted by a bound moves exactly where the grid moves and the
      destination is also inside the new bound. */
  lemma BoundByRestrictsMoves<B>(g: HexGrid<B>, ops: BoundOps<B>, bound: Option<B>, cell: Cell, dir: int)
    requires forall x, y, c :: ops.contains(ops.intersect(x, y), c) <==> ops.contains(x, c) && ops.contains(y, c)
    requires 0 <= dir < 6
    ensures var m := TryMove(BoundBy(g, ops, bound), ops, cell, dir).value;
      m.ok <==> TryMove(g, ops, cell, dir).value.ok && InBound(ops, bound, m.dest)
  {
    IntersectBoundsIsIntersection(ops, g.bound, bound, Add(cell, DirOffset(dir).value));
  }
}

=== FILE: hex_prism_cell_type.dfy ===
/** Cell information for hexagonal prisms. A prism has six equatorial sides
    (0..5), acted on by the dihedral group of the hexagon, and two axial caps,
    Forward and Back, which every rotation fixes. The caps are hexagons (a
    6-sided connection); the equatorial sides are quads (a 4-sided connection). */
module HexPrismCellType {
  import opened Base
  import Dihedral

  const Forward: int := 6
  const Back: int := 7

  const HexSides: int := 6

  /** One singleton per orientation. */
  datatype HexPrismCellType = HexPrismCellType(orientation: HexOrientation)

  function Get(orientation: HexOrientation): (t: HexPrismCellType)
    ensures t.orientation == orientation
  {
    HexPrismCellType(orientation)
  }

  /** The six equatorial sides, then Forward and Back. */
  const CellDirs: seq<int> := [0, 1, 2, 3, 4, 5, Forward, Back]

  /** Corners 0..5 on one cap, 6..11 on the other. */
  const CellCorners: seq<int> := [0, 1, 2, 3, 4, 5, 6, 7, 8, 9, 10, 11]

  const AllRotations: seq<int> := [0, 1, 2, 3, 4, 5]

  const AllRotationsAndReflections: seq<int> :=
    AllRotations + [Complement(0), Complement(1), Complement(2), Complement(3), Complement(4), Complement(5)]

  /** The rotations, followed by the reflections when they are asked for:
      each valid encoding exactly once. */
  function GetRotations(includeReflections: bool): (rs: seq<int>)
    ensures |rs| == if includeReflections then 12 else 6
    ensures forall r :: r in rs <==>
      (if includeReflections then Dihedral.IsValid(HexSides, r) else 0 <= r < HexSides)
    ensures forall i, j :: 0 <= i < j < |rs| ==> rs[i] != rs[j]
  {
    Dihedral.RotationsListing(HexSides, includeReflections);
    assert AllRotationsAndReflections == Dihedral.Rotations(HexSides, true);
    assert AllRotations == Dihedral.Rotations(HexSides, false);
    if includeReflections then AllRotationsAndReflections else AllRotations
  }

  predicate IsAxial(dir: int) { dir == Forward || dir == Back }

  function Multiply(a: int, b: int): (c: int)
    requires Dihedral.IsValid(HexSides, a) && Dihedral.IsValid(HexSides, b)
    ensures Dihedral.IsValid(HexSides, c)
  {
    Dihedral.Multiply(HexSides, a, b)
  }

  function Invert(a: int): (c: int)
    requires Dihedral.IsValid(HexSides, a)
    ensures Dihedral.IsValid(HexSides, c)
  {
    Dihedral.Invert(HexSides, a)
  }

  const Identity: int := Dihedral.Identity

  /** The opposite side: the other cap, or the equatorial side three steps round. */
  function InvertDir(dir: int): (r: Option<int>)
    ensures r.Some?
    ensures IsAxial(dir) <==> IsAxial(r.value)
    ensures dir in CellDirs ==> r.value in CellDirs && r.value != dir
  {
    if dir == Forward then Some(Back)
    else if dir == Back then Some(Forward)
    else Some(Dihedral.Act(HexSides, 3, dir))
  }

  /** The side `dir` faces after `rotation`: caps are fixed points. */
  function Rotate(dir: int, rotation: int): (r: int)
    ensures IsAxial(dir) ==> r == dir
    ensures !IsAxial(dir) ==> 0 <= r < HexSides
  {
    if IsAxial(dir) then dir else Dihedral.Act(HexSides, rotation, dir)
  }

  /** The corner reached by `rotation`: the cap a corner lies on is kept and
      its position round the cap is moved by the hexagon's corner action
      (corner `c` of a cap lies between equatorial sides `c` and `c + 1`). */
  function RotateCorner(corner: int, rotation: int): (r: int)
    ensures 0 <= corner < 12 ==> 0 <= r < 12 && (corner >= 6 <==> r >= 6)
  {
    Dihedral.ActCorner(HexSides, rotation, CRem(corner, 6)) + (if corner >= 6 then 6 else 0)
  }

  /** The move-time variant of Rotate. The front cap reports the rotation
      index as is, the back cap the complementary index (6 - k) % 6; a
      reflection across the back cap of a flat-topped prism is unsupported.
      Equatorial sides are quads whose only twists are (false, 0) and (true, 2). */
  function RotateConnection(t: HexPrismCellType, dir: int, rotation: int): (r: Result<(int, Connection)>)
    ensures r.Failure? <==> dir == Back && rotation < 0 && t.orientation == FlatTopped
    ensures r.Failure? ==> r.error == NotImplemented
    ensures r.Success? ==> r.value.0 == Rotate(dir, rotation)
    ensures r.Success? ==> r.value.1.mirror == Dihedral.IsReflection(rotation)
    ensures r.Success? ==> r.value.1.sides == if IsAxial(dir) then 6 else 4
  {
    if dir == Forward then
      Success((dir, Connection(rotation < 0, Dihedral.Index(rotation), 6)))
    else if dir == Back then
      if rotation < 0 && t.orientation == FlatTopped then
        Failure(NotImplemented)
      else
        Success((dir, Connection(rotation < 0, CRem(6 - Dihedral.Index(rotation), 6), 6)))
    else
      Success((Dihedral.Act(HexSides, rotation, dir), Connection(rotation < 0, if rotation < 0 then 2 else 0, 4)))
  }

  /** The inverse problem: the rotation that would take `fromDir` to `toDir`
      with the given connection, `None` when there is none. */
  function TryGetRotation(t: HexPrismCellType, fromDir: int, toDir: int, connection: Connection): (r: Result<Option<int>>)
    ensures r.Failure? <==>
      fromDir == Back && toDir == Back && connection.mirror && t.orientation == FlatTopped
    ensures r.Failure? ==> r.error == NotImplemented
    ensures r == Success(None) <==>
      || (IsAxial(fromDir) && fromDir != toDir)
      || (!IsAxial(fromDir) && IsAxial(toDir))
      || (!IsAxial(fromDir) && !IsAxial(toDir) &&
          !(connection.mirror && connection.rotation == 2) &&
          !(!connection.mirror && connection.rotation == 0))
  {
    if fromDir == Forward then
      if fromDir != toDir then Success(None)
      else Success(Some(if connection.mirror then Complement(connection.rotation) else connection.rotation))
    else if fromDir == Back then
      if fromDir != toDir then Success(None)
      else if connection.mirror && t.orientation == FlatTopped then Failure(NotImplemented)
      else
        var ir := CRem(6 - connection.rotation, 6);
        Success(Some(if connection.mirror then Complement(ir) else ir))
    else
      if IsAxial(toDir) then Success(None)
      else if connection.mirror && connection.rotation == 2 then
        var delta := CRem(toDir + fromDir, 6) + 6;
        Success(Some(Complement(CRem(delta, 6))))
      else if !connection.mirror && connection.rotation == 0 then
        var delta := CRem(toDir - fromDir, 6) + 6;
        Success(Some(CRem(delta, 6)))
      else Success(None)
  }

  // ---------------------------------------------------------------------
  // Tables

  /** 8 distinct directions (six equatorial, then the two caps), 12 corners,
      6 rotations, and 12 rotations-with-reflections `0..5, ~0..~5`. */
  lemma Tables()
    ensures |CellDirs| == 8 && CellDirs[6] == Forward && CellDirs[7] == Back
    ensures forall i, j :: 0 <= i < j < |CellDirs| ==> CellDirs[i] != CellDirs[j]
    ensures forall d :: d in CellDirs <==> 0 <= d < 8
    ensures |CellCorners| == 12 && forall c :: c in CellCorners <==> 0 <= c < 12
    ensures GetRotations(false) == Dihedral.Rotations(HexSides, false)
    ensures GetRotations(true) == Dihedral.Rotations(HexSides, true)
    ensures GetRotations(true)[..6] == GetRotations(false)
    ensures |GetRotations(true)| == 12
    ensures forall i, j :: 0 <= i < j < 12 ==> GetRotations(true)[i] != GetRotations(true)[j]
    ensures forall r :: r in GetRotations(true) <==> Dihedral.IsValid(HexSides, r)
  {
    Dihedral.RotationsListing(HexSides, true);
    assert forall d :: 0 <= d < 8 ==> CellDirs[d] == d;
    assert forall c :: 0 <= c < 12 ==> CellCorners[c] == c;
  }

  // ---------------------------------------------------------------------
  // Action on directions and corners

  /** Caps are fixed by every rotation, in both forms of Rotate. */
  lemma AxialFixed(t: HexPrismCellType, dir: int, rotation: int)
    requires IsAxial(dir)
    ensures Rotate(dir, rotation) == dir
    ensures RotateConnection(t, dir, rotation).Success? ==>
      RotateConnection(t, dir, rotation).value.0 == dir
  {
  }

  /** Rotations keep a corner on its cap, and rotate its position round the cap. */
  lemma RotateCornerKeepsCap(corner: int, rotation: int)
    requires 0 <= corner < 12
    ensures 0 <= RotateCorner(corner, rotation) < 12
    ensures corner >= 6 <==> RotateCorner(corner, rotation) >= 6
    ensures RotateCorner(corner, rotation) % 6 == Dihedral.ActCorner(HexSides, rotation, corner % 6)
  {
  }

  /** Corners follow the sides: the two equatorial sides bounding a corner
      are sent by Rotate to the two bounding its image, swapped by a
      reflection. */
  lemma CornersFollowSides(corner: int, rotation: int)
    requires 0 <= corner < 12 && rotation in GetRotations(true)
    ensures var c, e := corner % 6, RotateCorner(corner, rotation) % 6;
      rotation >= 0 ==> Rotate(c, rotation) == e && Rotate((c + 1) % 6, rotation) == (e + 1) % 6
    ensures var c, e := corner % 6, RotateCorner(corner, rotation) % 6;
      rotation < 0 ==> Rotate(c, rotation) == (e + 1) % 6 && Rotate((c + 1) % 6, rotation) == e
  {
    ListedIsValid();
    var c := corner % 6;
    var e := Dihedral.ActCorner(HexSides, rotation, c);
    RotateCornerKeepsCap(corner, rotation);
    assert RotateCorner(corner, rotation) % 6 == e;
    assert Dihedral.Wrap(HexSides, c + 1) == (c + 1) % 6;
    assert Dihedral.Wrap(HexSides, e + 1) == (e + 1) % 6;
    Dihedral.CornerBetweenSides(HexSides, rotation, c);
  }

  /** A reflection that fixes a side fixes no corner: `~0` keeps side 0 and
      sends corner 0 (between sides 0 and 1) to corner 5 (between 5 and 0). */
  lemma CornerExamples()
    ensures RotateCorner(0, Complement(0)) == 5
    ensures RotateCorner(6, Complement(0)) == 11
    ensures RotateCorner(7, 1) == 8
    ensures Rotate(0, Complement(0)) == 0
  {
  }

  /** Multiply composes the actions on directions. */
  lemma MultiplyActs(a: int, b: int, dir: int)
    requires a in GetRotations(true) && b in GetRotations(true)
    ensures Rotate(dir, Multiply(a, b)) == Rotate(Rotate(dir, b), a)
  {
    Tables();
    if !IsAxial(dir) {
      Dihedral.ActMultiply(HexSides, a, b, dir);
    }
  }

  /** The group laws over all twelve rotations and reflections. */
  lemma GroupLaws(a: int, b: int, c: int)
    requires a in GetRotations(true) && b in GetRotations(true) && c in GetRotations(true)
    ensures Multiply(Multiply(a, b), c) == Multiply(a, Multiply(b, c))
    ensures Multiply(Identity, a) == a && Multiply(a, Identity) == a
    ensures Multiply(a, Invert(a)) == Identity && Multiply(Invert(a), a) == Identity
  {
    Tables();
    Dihedral.Associativity(HexSides, a, b, c);
    Dihedral.IdentityLaws(HexSides, a);
    Dihedral.InverseLaws(HexSides, a);
  }

  /** The identity rotation fixes every direction, caps and sides alike. */
  lemma IdentityFixesEveryDirection(t: HexPrismCellType, dir: int)
    requires dir in CellDirs
    ensures Rotate(dir, Identity) == dir
    ensures RotateConnection(t, dir, Identity).Success?
    ensures RotateConnection(t, dir, Identity).value.0 == dir
  {
    Tables();
    if !IsAxial(dir) {
      Dihedral.ActIdentity(HexSides, dir);
    }
  }

  /** Inverting a direction twice gives it back. */
  lemma InvertDirInvolution(dir: int)
    requires dir in CellDirs
    ensures InvertDir(InvertDir(dir).value) == Some(dir)
  {
    Tables();
  }

  /** Opposite sides stay opposite under every rotation and reflection.
      With the involution and the absence of fixed points this pins the
      opposite down: the caps swap, and an equatorial side goes to the one
      a half turn away. */
  lemma InvertDirCommutesWithRotate(dir: int, rotation: int)
    requires dir in CellDirs && rotation in GetRotations(true)
    ensures InvertDir(Rotate(dir, rotation)) == Some(Rotate(InvertDir(dir).value, rotation))
  {
    Tables();
    if !IsAxial(dir) {
      Dihedral.ActMultiply(HexSides, 3, rotation, dir);
      Dihedral.ActMultiply(HexSides, rotation, 3, dir);
      Dihedral.ActReduces(HexSides, 3, dir);
    }
  }

  /** The opposite directions: Forward and Back swap, and side `d` faces side
      `d + 3` round the hexagon. */
  lemma OppositeDirections()
    ensures InvertDir(Forward) == Some(Back) && InvertDir(Back) == Some(Forward)
    ensures forall d :: 0 <= d < HexSides ==> InvertDir(d) == Some(Rotate(d, 3))
    ensures InvertDir(0) == Some(3) && InvertDir(4) == Some(1)
  {
  }

  // ---------------------------------------------------------------------
  // Connections

  /** The chirality correction: a half-way example on each cap. */
  lemma CapExamples(t: HexPrismCellType)
    ensures RotateConnection(t, Forward, 2) == Success((Forward, Connection(false, 2, 6)))
    ensures RotateConnection(t, Back, 2) == Success((Back, Connection(false, 4, 6)))
    ensures t.orientation == FlatTopped ==>
      RotateConnection(t, Back, Complement(2)) == Failure(NotImplemented)
  {
  }

  /** Front cap: `Rotation` is the index; back cap: the complementary index. */
  lemma CapConnections(t: HexPrismCellType, rotation: int)
    requires rotation in GetRotations(true)
    ensures RotateConnection(t, Forward, rotation).value.1 ==
      Connection(Dihedral.IsReflection(rotation), Dihedral.Index(rotation), 6)
    ensures RotateConnection(t, Back, rotation).Success? ==>
      RotateConnection(t, Back, rotation).value.1 ==
        Connection(Dihedral.IsReflection(rotation), (6 - Dihedral.Index(rotation)) % 6, 6)
  {
    Tables();
  }

  /** Equatorial sides report (false, 0) for rotations and (true, 2) for reflections. */
  lemma SideConnections(t: HexPrismCellType, dir: int, rotation: int)
    requires !IsAxial(dir)
    ensures RotateConnection(t, dir, rotation).Success?
    ensures RotateConnection(t, dir, rotation).value.1 ==
      if rotation < 0 then Connection(true, 2, 4) else Connection(false, 0, 4)
  {
  }

  /** Membership in the full listing is validity of the encoding. */
  lemma ListedIsValid()
    ensures forall r :: r in GetRotations(true) <==> Dihedral.IsValid(HexSides, r)
  {
    Tables();
  }

  /** Round trip: the rotation that produced a direction and connection is
      recovered from them. */
  lemma RotateThenTryGetRotation(t: HexPrismCellType, dir: int, rotation: int)
    requires rotation in GetRotations(true)
    requires RotateConnection(t, dir, rotation).Success?
    ensures TryGetRotation(t, dir, RotateConnection(t, dir, rotation).value.0,
                           RotateConnection(t, dir, rotation).value.1) == Success(Some(rotation))
  {
    ListedIsValid();
    if dir == Forward {
    } else if dir == Back {
      BackCapRoundTrip(t, rotation);
    } else {
      SideRoundTrip(dir, rotation);
    }
  }

  lemma BackCapRoundTrip(t: HexPrismCellType, rotation: int)
    requires Dihedral.IsValid(HexSides, rotation)
    requires RotateConnection(t, Back, rotation).Success?
    ensures TryGetRotation(t, Back, Back, RotateConnection(t, Back, rotation).value.1) == Success(Some(rotation))
  {
    var k := Dihedral.Index(rotation);
    var rot := CRem(6 - k, 6);
    assert RotateConnection(t, Back, rotation).value.1 == Connection(rotation < 0, rot, 6);
    if k == 0 {
      assert rot == 0;
    } else {
      assert rot == 6 - k;
    }
    assert CRem(6 - rot, 6) == k;
  }

  /** On an equatorial side the connection only says whether `rotation` is a
      reflection, and the direction pair determines the index. */
  lemma SideRoundTrip(dir: int, rotation: int)
    requires Dihedral.IsValid(HexSides, rotation)
    ensures var toDir := Dihedral.Act(HexSides, rotation, dir);
      if rotation < 0 then Complement(CRem(CRem(toDir + dir, 6) + 6, 6)) == rotation
      else CRem(CRem(toDir - dir, 6) + 6, 6) == rotation
  {
    var toDir := Dihedral.Act(HexSides, rotation, dir);
    var q, m := dir / 6, dir % 6;
    Dihedral.ActReduces(HexSides, rotation, dir);
    Dihedral.ActInRange(HexSides, rotation, m);
    var k := Dihedral.Index(rotation);
    if rotation < 0 {
      CRemNormalize(toDir + dir, 6);
      if k - m < 0 {
        ModUnique(toDir + dir, 6, q + 1, k);
      } else {
        ModUnique(toDir + dir, 6, q, k);
      }
    } else {
      CRemNormalize(toDir - dir, 6);
      if m + k >= 6 {
        ModUnique(toDir - dir, 6, -q - 1, k);
      } else {
        ModUnique(toDir - dir, 6, -q, k);
      }
    }
  }

  /** ... and the side index a recovered reflection sends `fromDir` to ... */
  lemma SideRecoveryReflection(fromDir: int, toDir: int)
    requires 0 <= toDir < 6
    ensures var r := Complement(CRem(CRem(toDir + fromDir, 6) + 6, 6));
      Dihedral.IsValid(HexSides, r) && Dihedral.Act(HexSides, r, fromDir) == toDir
  {
    var x := CRem(CRem(toDir + fromDir, 6) + 6, 6);
    CRemNormalize(toDir + fromDir, 6);
    assert 0 <= x < 6;
    var r := Complement(x);
    var m := fromDir % 6;
    Dihedral.ActReduces(HexSides, r, fromDir);
    Dihedral.ActInRange(HexSides, r, m);
    var qs, qf := (toDir + fromDir) / 6, fromDir / 6;
    assert toDir + fromDir == 6 * qs + x;
    assert fromDir == 6 * qf + m;
    assert x - m == toDir + 6 * (qf - qs);
  }

  /** ... and by a recovered rotation. */
  lemma SideRecoveryRotation(fromDir: int, toDir: int)
    requires 0 <= toDir < 6
    ensures var r := CRem(CRem(toDir - fromDir, 6) + 6, 6);
      Dihedral.IsValid(HexSides, r) && Dihedral.Act(HexSides, r, fromDir) == toDir
  {
    var x := CRem(CRem(toDir - fromDir, 6) + 6, 6);
    CRemNormalize(toDir - fromDir, 6);
    assert 0 <= x < 6;
    var m := fromDir % 6;
    Dihedral.ActReduces(HexSides, x, fromDir);
    Dihedral.ActInRange(HexSides, x, m);
    var qs, qf := (toDir - fromDir) / 6, fromDir / 6;
    assert toDir - fromDir == 6 * qs + x;
    assert fromDir == 6 * qf + m;
    assert m + x == toDir - 6 * (qs + qf);
  }

  /** Conversely, a rotation TryGetRotation finds reproduces the direction and
      connection it was given, whenever that connection is one Rotate can
      produce for the face (a 6-sided cap twist in 0..5, or a 4-sided side
      twist towards an equatorial side). */
  lemma TryGetRotationThenRotate(t: HexPrismCellType, fromDir: int, toDir: int,
                                 connection: Connection, rotation: int)
    requires TryGetRotation(t, fromDir, toDir, connection) == Success(Some(rotation))
    requires IsAxial(fromDir) ==> connection.sides == 6 && 0 <= connection.rotation < 6
    requires !IsAxial(fromDir) ==> connection.sides == 4 && 0 <= toDir < 6
    ensures rotation in GetRotations(true)
    ensures RotateConnection(t, fromDir, rotation) == Success((toDir, connection))
  {
    ListedIsValid();
    if fromDir == Forward {
    } else if fromDir == Back {
      var ir := CRem(6 - connection.rotation, 6);
      if connection.rotation == 0 {
        assert ir == 0;
      } else {
        assert ir == 6 - connection.rotation;
      }
      assert CRem(6 - ir, 6) == connection.rotation;
    } else if connection.mirror {
      SideRecoveryReflection(fromDir, toDir);
    } else {
      SideRecoveryRotation(fromDir, toDir);
    }
  }
}

=== FILE: igrid.dfy ===
/** The part of the IGrid protocol the generic algorithms and modifiers use,
    as a record of operations. C# out-parameters become result records and
    thrown exceptions become `Failure`. */
module IGrid {
  import opened Base

  /** `TryMove`'s return value and out-parameters. */
  datatype Move = Move(ok: bool, dest: Cell, inverseDir: int, connection: Connection)

  /** `TryMoveByOffset`'s return value and out-parameters. */
  datatype OffsetMove = OffsetMove(ok: bool, destCell: Cell, destRotation: int)

  /** `ParallelTransport`'s return value and out-parameters. */
  datatype Transport = Transport(ok: bool, destCell: Cell, destRotation: int)

  /** One step of a path: leave `cell` through side `dir`. */
  datatype Hop = Hop(cell: Cell, dir: int)

  /** A grid seen through its operations; `CT` identifies cell types. */
  datatype GridOps<CT> = GridOps(
    tryMove: (Cell, int) -> Result<Move>,
    tryMoveByOffset: (Cell, Vec3, Vec3, int) -> Result<OffsetMove>,
    getCellType: Cell -> CT,
    isSingleCellType: bool,
    cellTypes: seq<CT>,
    cells: Result<seq<Cell>>,
    findBasicPath: (Cell, Cell) -> Result<Option<seq<Hop>>>)

  /** A grid together with its `Unbounded` relative. */
  datatype Grid<CT> = Grid(ops: GridOps<CT>, unbounded: GridOps<CT>)

  /** The path-finding obligation: starting at `start`, each hop leaves the
      cell the previous hop reached, every move succeeds, and the last one
      reaches `end`. */
  ghost predicate ValidPath<CT>(g: GridOps<CT>, path: seq<Hop>, start: Cell, end: Cell)
  {
    && (|path| == 0 ==> start == end)
    && (|path| > 0 ==> path[0].cell == start)
    && forall i :: 0 <= i < |path| ==> HopArrives(g, path, i, end)
  }

  /** Hop `i` of `path` moves to the next hop's cell, or to `end` after the last hop. */
  ghost predicate HopArrives<CT>(g: GridOps<CT>, path: seq<Hop>, i: int, end: Cell)
    requires 0 <= i < |path|
  {
    var m := g.tryMove(path[i].cell, path[i].dir);
    && m.Success? && m.value.ok
    && m.value.dest == (if i + 1 < |path| then path[i + 1].cell else end)
  }
}

=== FILE: square_bound.dfy ===
/** A bounding box on a square grid: min inclusive, max exclusive, on x and y. */
module SquareBound {
  import opened Base

  datatype Vec2 = Vec2(x: int, y: int)

  datatype SquareBound = SquareBound(min: Vec2, max: Vec2)

  function Size(b: SquareBound): Vec2 { Vec2(b.max.x - b.min.x, b.max.y - b.min.y) }

  predicate Contains(b: SquareBound, v: Vec2)
  {
    v.x >= b.min.x && v.y >= b.min.y && v.x < b.max.x && v.y < b.max.y
  }

  /** The `Cell` overload reads x and y only. */
  predicate ContainsCell(b: SquareBound, c: Cell)
  {
    c.x >= b.min.x && c.y >= b.min.y && c.x < b.max.x && c.y < b.max.y
  }

  predicate IsEmpty(b: SquareBound) { b.max.x <= b.min.x || b.max.y <= b.min.y }

  function MinV(a: Vec2, b: Vec2): Vec2
  {
    Vec2(if a.x <= b.x then a.x else b.x, if a.y <= b.y then a.y else b.y)
  }

  function MaxV(a: Vec2, b: Vec2): Vec2
  {
    Vec2(if a.x >= b.x then a.x else b.x, if a.y >= b.y then a.y else b.y)
  }

  /** The box of the points in both boxes. */
  function Intersect(a: SquareBound, b: SquareBound): (r: SquareBound)
    ensures forall v :: Contains(r, v) <==> Contains(a, v) && Contains(b, v)
  {
    SquareBound(MaxV(a.min, b.min), MinV(a.max, b.max))
  }

  /** The hull of the two boxes. */
  function Union(a: SquareBound, b: SquareBound): (r: SquareBound)
    ensures forall v :: Contains(a, v) || Contains(b, v) ==> Contains(r, v)
  {
    SquareBound(MinV(a.min, b.min), MaxV(a.max, b.max))
  }

  // ---------------------------------------------------------------------
  // Set semantics

  /** The two overloads agree, and the `Cell` overload ignores z. */
  lemma ContainsOverloadsAgree(b: SquareBound, c: Cell)
    ensures ContainsCell(b, c) == Contains(b, Vec2(c.x, c.y))
    ensures ContainsCell(b, c) == ContainsCell(b, Vec3(c.x, c.y, 0))
  {
  }

  lemma IntersectCommutesAndIsIdempotent(a: SquareBound, b: SquareBound)
    ensures Intersect(a, b) == Intersect(b, a)
    ensures Intersect(a, a) == a
  {
  }

  lemma UnionCommutesAndIsIdempotent(a: SquareBound, b: SquareBound)
    ensures Union(a, b) == Union(b, a)
    ensures Union(a, a) == a
  {
  }

  /** The union is the least box containing two non-empty boxes: any box that
      contains both contains their union. */
  lemma UnionIsLeast(a: SquareBound, b: SquareBound, c: SquareBound)
    requires !IsEmpty(a) && !IsEmpty(b)
    requires forall v :: Contains(a, v) ==> Contains(c, v)
    requires forall v :: Contains(b, v) ==> Contains(c, v)
    ensures forall v :: Contains(Union(a, b), v) ==> Contains(c, v)
  {
    assert Contains(c, a.min) && Contains(c, b.min);
    assert Contains(c, Vec2(a.max.x - 1, a.max.y - 1));
    assert Contains(c, Vec2(b.max.x - 1, b.max.y - 1));
  }

  // ---------------------------------------------------------------------
  // Enumeration

  /** x-major order: by x, then by y. */
  predicate Before(a: Cell, b: Cell)
  {
    a.x < b.x || (a.x == b.x && a.y < b.y)
  }

  function Count(b: SquareBound): nat
  {
    if IsEmpty(b) then 0 else Size(b).x * Size(b).y
  }

  /** The cells of the box, `x` outer and `y` inner, all with z = 0. */
  method Cells(b: SquareBound) returns (cells: seq<Cell>)
    ensures forall i :: 0 <= i < |cells| ==> ContainsCell(b, cells[i]) && cells[i].z == 0
    ensures forall c :: ContainsCell(b, c) && c.z == 0 ==> c in cells
    ensures forall i, j :: 0 <= i < j < |cells| ==> Before(cells[i], cells[j])
    ensures |cells| == Count(b)
  {
    var h := if b.max.y > b.min.y then b.max.y - b.min.y else 0;
    cells := [];
    var x := b.min.x;
    while x < b.max.x
      invariant x == b.min.x || b.min.x <= x <= b.max.x
      invariant forall i :: 0 <= i < |cells| ==>
        ContainsCell(b, cells[i]) && cells[i].z == 0 && cells[i].x < x
      invariant forall c :: ContainsCell(b, c) && c.z == 0 && c.x < x ==> c in cells
      invariant forall i, j :: 0 <= i < j < |cells| ==> Before(cells[i], cells[j])
      invariant |cells| == (x - b.min.x) * h
    {
      var y := b.min.y;
      while y < b.max.y
        invariant y == b.min.y || b.min.y <= y <= b.max.y
        invariant forall i :: 0 <= i < |cells| ==>
          ContainsCell(b, cells[i]) && cells[i].z == 0 && (cells[i].x < x || (cells[i].x == x && cells[i].y < y))
        invariant forall c :: ContainsCell(b, c) && c.z == 0 && (c.x < x || (c.x == x && c.y < y)) ==> c in cells
        invariant forall i, j :: 0 <= i < j < |cells| ==> Before(cells[i], cells[j])
        invariant |cells| == (x - b.min.x) * h + (y - b.min.y)
      {
        cells := cells + [Vec3(x, y, 0)];
        y := y + 1;
      }
      x := x + 1;
    }
  }
}

=== FILE: square_cell_type.dfy ===
/** Cell information for squares: four sides, and the dihedral group of
    order 8 acting on them exactly as the n-gon cell type does with n = 4. */
module SquareCellType {
  import opened Base
  import Dihedral

  const Right: int := 0
  const Up: int := 1
  const Left: int := 2
  const Down: int := 3

  const Sides: int := 4

  /** `GetCellDirs()`. */
  const CellDirs: seq<int> := [Right, Up, Left, Down]

  const AllRotations: seq<int> := [0, 1, 2, 3]

  const AllRotationsAndReflections: seq<int> :=
    [0, 1, 2, 3, Complement(0), Complement(1), Complement(2), Complement(3)]

  /** The rotations, followed by the reflections when they are asked for:
      each valid encoding exactly once. */
  function GetRotations(includeReflections: bool): (rs: seq<int>)
    ensures |rs| == if includeReflections then 8 else 4
    ensures forall r :: r in rs <==>
      (if includeReflections then Dihedral.IsValid(Sides, r) else 0 <= r < Sides)
    ensures forall i, j :: 0 <= i < j < |rs| ==> rs[i] != rs[j]
  {
    Dihedral.RotationsListing(Sides, includeReflections);
    assert AllRotationsAndReflections == Dihedral.Rotations(Sides, true);
    assert AllRotations == Dihedral.Rotations(Sides, false);
    if includeReflections then AllRotationsAndReflections else AllRotations
  }

  function Multiply(a: int, b: int): (c: int)
    requires Dihedral.IsValid(Sides, a) && Dihedral.IsValid(Sides, b)
    ensures c in GetRotations(true)
  {
    Dihedral.RotationsListing(Sides, true);
    Dihedral.Multiply(Sides, a, b)
  }

  function Invert(a: int): (c: int)
    requires Dihedral.IsValid(Sides, a)
    ensures c in GetRotations(true)
  {
    Dihedral.RotationsListing(Sides, true);
    Dihedral.Invert(Sides, a)
  }

  const Identity: int := Dihedral.Identity

  /** The side `dir` faces after applying `rotation`. */
  function Rotate(dir: int, rotation: int): (r: int)
    ensures r in CellDirs
  {
    Dihedral.Act(Sides, rotation, dir)
  }

  /** The move-time variant: the rotated side, and a connection whose only
      non-default field is `Mirror`. */
  function RotateConnection(dir: int, rotation: int): (r: (int, Connection))
    ensures r.0 == Rotate(dir, rotation)
    ensures r.1.mirror <==> Dihedral.IsReflection(rotation)
    ensures r.1.rotation == 0 && r.1.sides == 0
  {
    (Rotate(dir, rotation), Connection(rotation < 0, 0, 0))
  }

  /** The opposite side. */
  function InvertDir(dir: int): (r: Option<int>)
    ensures r.Some? && r.value in CellDirs
    ensures dir in CellDirs ==> r.value != dir
  {
    Some(Rotate(dir, 2))
  }

  // ---------------------------------------------------------------------
  // Properties

  /** Right, Up, Left, Down: four distinct sides. */
  lemma CellDirsAreTheFourSides()
    ensures |CellDirs| == 4
    ensures forall i, j :: 0 <= i < j < |CellDirs| ==> CellDirs[i] != CellDirs[j]
    ensures forall d :: d in CellDirs <==> 0 <= d < Sides
  {
  }

  /** The tables are the n-gon listing for n = 4: `0..3`, then `~0..~3`, all distinct. */
  lemma RotationTables()
    ensures GetRotations(false) == Dihedral.Rotations(Sides, false)
    ensures GetRotations(true) == Dihedral.Rotations(Sides, true)
    ensures GetRotations(true) == GetRotations(false) + [-1, -2, -3, -4]
    ensures |GetRotations(true)| == 8
    ensures forall i, j :: 0 <= i < j < 8 ==> GetRotations(true)[i] != GetRotations(true)[j]
    ensures forall r :: r in GetRotations(true) <==> Dihedral.IsValid(Sides, r)
  {
    Dihedral.RotationsListing(Sides, true);
    assert Dihedral.Rotations(Sides, true) == AllRotationsAndReflections;
    assert Dihedral.Rotations(Sides, false) == AllRotations;
  }

  /** The examples: a quarter turn takes Right to Up, Right's opposite is Left,
      and two quarter turns compose to a half turn. */
  lemma Examples()
    ensures Rotate(Right, 1) == Up
    ensures InvertDir(Right) == Some(Left)
    ensures Multiply(1, 1) == 2
  {
  }

  /** Multiply composes the actions on sides. */
  lemma MultiplyActs(a: int, b: int, dir: int)
    requires a in GetRotations(true) && b in GetRotations(true)
    ensures Rotate(dir, Multiply(a, b)) == Rotate(Rotate(dir, b), a)
  {
    Dihedral.ActMultiply(Sides, a, b, dir);
  }

  /** The group laws over all eight rotations and reflections. */
  lemma GroupLaws(a: int, b: int, c: int)
    requires a in GetRotations(true) && b in GetRotations(true) && c in GetRotations(true)
    ensures Multiply(Multiply(a, b), c) == Multiply(a, Multiply(b, c))
    ensures Multiply(Identity, a) == a && Multiply(a, Identity) == a
    ensures Multiply(a, Invert(a)) == Identity && Multiply(Invert(a), a) == Identity
  {
    Dihedral.Associativity(Sides, a, b, c);
    Dihedral.IdentityLaws(Sides, a);
    Dihedral.InverseLaws(Sides, a);
  }

  /** The identity rotation fixes every side, both forms of Rotate. */
  lemma IdentityFixesEveryDirection(dir: int)
    requires dir in CellDirs
    ensures Rotate(dir, Identity) == dir
    ensures RotateConnection(dir, Identity) == (dir, DefaultConnection)
  {
    Dihedral.ActIdentity(Sides, dir);
  }

  /** Inverting a side twice gives it back. */
  lemma InvertDirInvolution(dir: int)
    requires dir in CellDirs
    ensures InvertDir(InvertDir(dir).value) == Some(dir)
  {
  }

  /** Opposite sides stay opposite under every rotation and reflection.
      With the involution and the absence of fixed points this pins the
      opposite down to the half turn: Right and Left, Up and Down. */
  lemma InvertDirCommutesWithRotate(dir: int, rotation: int)
    requires dir in CellDirs && rotation in GetRotations(true)
    ensures InvertDir(Rotate(dir, rotation)) == Some(Rotate(InvertDir(dir).value, rotation))
  {
    Dihedral.ActMultiply(Sides, 2, rotation, dir);
    Dihedral.ActMultiply(Sides, rotation, 2, dir);
  }

  /** The opposite pairs: Right and Left, Up and Down. */
  lemma OppositeSides()
    ensures InvertDir(Right) == Some(Left) && InvertDir(Left) == Some(Right)
    ensures InvertDir(Up) == Some(Down) && InvertDir(Down) == Some(Up)
  {
  }
}

=== FILE: wrap_modifier.dfy ===
/** Turns a bounded grid into one that connects back on itself: moves are
    made in the underlying grid's Unbounded relative, and the cell reached is
    replaced by `canonicalize`, which returns `None` for cells that have no
    representative. */
module WrapModifier {
  import opened Base
  import opened IGrid

  datatype WrapModifier<CT> = WrapModifier(
    underlying: Grid<CT>,
    unboundedUnderlying: GridOps<CT>,
    canonicalize: Cell -> Option<Cell>)

  function New<CT>(underlying: Grid<CT>, canonicalize: Cell -> Option<Cell>): (w: WrapModifier<CT>)
    ensures w.underlying == underlying && w.canonicalize == canonicalize
    ensures w.unboundedUnderlying == underlying.unbounded
  {
    WrapModifier(underlying, underlying.unbounded, canonicalize)
  }

  /** The same wrapping over another underlying grid. */
  function Rebind<CT>(w: WrapModifier<CT>, underlying: Grid<CT>): (r: WrapModifier<CT>)
    ensures r.underlying == underlying && r.canonicalize == w.canonicalize
    ensures r.unboundedUnderlying == underlying.unbounded
  {
    New(underlying, w.canonicalize)
  }

  function Canonicalize<CT>(w: WrapModifier<CT>, cell: Cell): Option<Cell>
  {
    w.canonicalize(cell)
  }

  /** A move in the unbounded underlying grid, then canonicalised. A failed
      move or a cell without representative reports `Origin` (C#'s `default`);
      the inverse side and connection are the underlying move's. */
  function TryMove<CT>(w: WrapModifier<CT>, cell: Cell, dir: int): (r: Result<Move>)
    ensures r.Failure? <==> w.unboundedUnderlying.tryMove(cell, dir).Failure?
    ensures r.Failure? ==> r.error == w.unboundedUnderlying.tryMove(cell, dir).error
    ensures r.Success? ==>
      var u := w.unboundedUnderlying.tryMove(cell, dir).value;
      && r.value.inverseDir == u.inverseDir && r.value.connection == u.connection
      && (r.value.ok <==> u.ok && Canonicalize(w, u.dest).Some?)
      && (r.value.ok ==> Canonicalize(w, u.dest) == Some(r.value.dest))
      && (!r.value.ok ==> r.value.dest == Origin)
  {
    match w.unboundedUnderlying.tryMove(cell, dir)
    case Failure(e) => Failure(e)
    case Success(m) =>
      if !m.ok then Success(Move(false, Origin, m.inverseDir, m.connection))
      else
        var c := w.canonicalize(m.dest);
        Success(Move(c.Some?, if c.Some? then c.value else Origin, m.inverseDir, m.connection))
  }

  function TryMoveByOffset<CT>(w: WrapModifier<CT>, startCell: Cell, startOffset: Vec3, destOffset: Vec3,
                               startRotation: int): (r: Result<OffsetMove>)
    ensures r.Failure? <==> w.unboundedUnderlying.tryMoveByOffset(startCell, startOffset, destOffset, startRotation).Failure?
    ensures r.Success? ==>
      var u := w.unboundedUnderlying.tryMoveByOffset(startCell, startOffset, destOffset, startRotation).value;
      && r.value.destRotation == u.destRotation
      && (r.value.ok <==> u.ok && Canonicalize(w, u.destCell).Some?)
      && (r.value.ok ==> Canonicalize(w, u.destCell) == Some(r.value.destCell))
      && (!r.value.ok ==> r.value.destCell == Origin)
  {
    match w.unboundedUnderlying.tryMoveByOffset(startCell, startOffset, destOffset, startRotation)
    case Failure(e) => Failure(e)
    case Success(m) =>
      if !m.ok then Success(OffsetMove(false, Origin, m.destRotation))
      else
        var c := w.canonicalize(m.destCell);
        Success(OffsetMove(c.Some?, if c.Some? then c.value else Origin, m.destRotation))
  }

  /** The modifier as a grid: the two moves are its own, every other member is
      the underlying grid's, and it is its own Unbounded relative. */
  function Ops<CT>(w: WrapModifier<CT>): GridOps<CT>
  {
    w.underlying.ops.(
      tryMove := (cell, dir) => TryMove(w, cell, dir),
      tryMoveByOffset := (cell, startOffset, destOffset, rotation) =>
        TryMoveByOffset(w, cell, startOffset, destOffset, rotation))
  }

  function AsGrid<CT>(w: WrapModifier<CT>): (g: Grid<CT>)
    ensures g.unbounded == g.ops
  {
    Grid(Ops(w), Ops(w))
  }

  /** `canonicalize` picks representatives: a representative is its own. */
  ghost predicate PicksRepresentatives<CT>(w: WrapModifier<CT>)
  {
    forall c :: Canonicalize(w, c).Some? ==> Canonicalize(w, Canonicalize(w, c).value) == Canonicalize(w, c)
  }

  /** With such a `canonicalize`, every successful move lands on a representative. */
  lemma MovesLandOnRepresentatives<CT>(w: WrapModifier<CT>, cell: Cell, dir: int)
    requires PicksRepresentatives(w)
    requires TryMove(w, cell, dir).Success? && TryMove(w, cell, dir).value.ok
    ensures Canonicalize(w, TryMove(w, cell, dir).value.dest) == Some(TryMove(w, cell, dir).value.dest)
  {
    var u := w.unboundedUnderlying.tryMove(cell, dir).value;
    assert Canonicalize(w, u.dest).Some?;
  }

  /** Where the underlying unbounded move reaches a representative, the
      wrapped grid moves exactly as the underlying unbounded grid. */
  lemma AgreesWhereCanonical<CT>(w: WrapModifier<CT>, cell: Cell, dir: int)
    requires w.unboundedUnderlying.tryMove(cell, dir).Success?
    requires w.unboundedUnderlying.tryMove(cell, dir).value.ok
    requires Canonicalize(w, w.unboundedUnderlying.tryMove(cell, dir).value.dest) ==
      Some(w.unboundedUnderlying.tryMove(cell, dir).value.dest)
    ensures TryMove(w, cell, dir) == w.unboundedUnderlying.tryMove(cell, dir)
  {
  }

  /** The same for offset moves: a successful one lands on a representative. */
  lemma OffsetMovesLandOnRepresentatives<CT>(w: WrapModifier<CT>, startCell: Cell, startOffset: Vec3,
                                             destOffset: Vec3, startRotation: int)
    requires PicksRepresentatives(w)
    requires TryMoveByOffset(w, startCell, startOffset, destOffset, startRotation).Success?
    requires TryMoveByOffset(w, startCell, startOffset, destOffset, startRotation).value.ok
    ensures var m := TryMoveByOffset(w, startCell, startOffset, destOffset, startRotation).value;
      Canonicalize(w, m.destCell) == Some(m.destCell)
  {
    var u := w.unboundedUnderlying.tryMoveByOffset(startCell, startOffset, destOffset, startRotation).value;
    assert Canonicalize(w, u.destCell).Some?;
  }

  /** ... and where the underlying offset move reaches a representative, the
      wrapped grid moves by offset exactly as the underlying unbounded grid. */
  lemma OffsetAgreesWhereCanonical<CT>(w: WrapModifier<CT>, startCell: Cell, startOffset: Vec3,
                                       destOffset: Vec3, startRotation: int)
    requires w.unboundedUnderlying.tryMoveByOffset(startCell, startOffset, destOffset, startRotation).Success?
    requires w.unboundedUnderlying.tryMoveByOffset(startCell, startOffset, destOffset, startRotation).value.ok
    requires var d := w.unboundedUnderlying.tryMoveByOffset(startCell, startOffset, destOffset, startRotation).value.destCell;
      Canonicalize(w, d) == Some(d)
    ensures TryMoveByOffset(w, startCell, startOffset, destOffset, startRotation) ==
      w.unboundedUnderlying.tryMoveByOffset(startCell, startOffset, destOffset, startRotation)
  {
  }

  /** Moves never consult the underlying grid's own bound: rebinding to
      another grid with the same Unbounded relative moves identically. */
  lemma RebindKeepsMoves<CT>(w: WrapModifier<CT>, other: Grid<CT>, cell: Cell, dir: int)
    requires other.unbounded == w.unboundedUnderlying
    ensures TryMove(Rebind(w, other), cell, dir) == TryMove(w, cell, dir)
  {
  }
}

=== FILE: xz_modifier.dfy ===
/** Converts a grid in the XY plane into one in the XZ plane by turning Y+
    into Z+ (and Z+ into Y-). Cells are not rotated: their cell types are
    replaced by the XZ variant `xz(ct)` (XZCellModifier.Get). */
module XZModifier {
  import opened Base
  import opened IGrid
  import DefaultGridImpl

  // ---------------------------------------------------------------------
  // The two fixed rotation matrices

  datatype Vec4 = Vec4(x: int, y: int, z: int, w: int)

  /** A 4x4 matrix given by its four columns. */
  datatype Matrix4x4 = Matrix4x4(c0: Vec4, c1: Vec4, c2: Vec4, c3: Vec4)

  function Scale(k: int, v: Vec4): Vec4 { Vec4(k * v.x, k * v.y, k * v.z, k * v.w) }

  function Plus(a: Vec4, b: Vec4): Vec4 { Vec4(a.x + b.x, a.y + b.y, a.z + b.z, a.w + b.w) }

  /** `m * v`: the columns weighted by the coordinates of `v`. */
  function Apply(m: Matrix4x4, v: Vec4): Vec4
  {
    Plus(Plus(Scale(v.x, m.c0), Scale(v.y, m.c1)), Plus(Scale(v.z, m.c2), Scale(v.w, m.c3)))
  }

  /** `a * b`, column by column. */
  function Mul(a: Matrix4x4, b: Matrix4x4): Matrix4x4
  {
    Matrix4x4(Apply(a, b.c0), Apply(a, b.c1), Apply(a, b.c2), Apply(a, b.c3))
  }

  const UnitX: Vec4 := Vec4(1, 0, 0, 0)
  const UnitY: Vec4 := Vec4(0, 1, 0, 0)
  const UnitZ: Vec4 := Vec4(0, 0, 1, 0)
  const UnitW: Vec4 := Vec4(0, 0, 0, 1)

  const IdentityMatrix: Matrix4x4 := Matrix4x4(UnitX, UnitY, UnitZ, UnitW)

  const RotateYZ: Matrix4x4 := Matrix4x4(Vec4(1, 0, 0, 0), Vec4(0, 0, 1, 0), Vec4(0, -1, 0, 0), Vec4(0, 0, 0, 1))
  const RotateZY: Matrix4x4 := Matrix4x4(Vec4(1, 0, 0, 0), Vec4(0, 0, -1, 0), Vec4(0, 1, 0, 0), Vec4(0, 0, 0, 1))

  /** RotateYZ fixes X and W, sends +Y to +Z and +Z to -Y. */
  lemma ApplyRotateYZ(v: Vec4)
    ensures Apply(RotateYZ, v) == Vec4(v.x, -v.z, v.y, v.w)
  {
  }

  /** RotateZY fixes X and W, sends +Z to +Y and +Y to -Z. */
  lemma ApplyRotateZY(v: Vec4)
    ensures Apply(RotateZY, v) == Vec4(v.x, v.z, -v.y, v.w)
  {
  }

  /** Each rotation undoes the other, on every vector ... */
  lemma RotationsUndoEachOther(v: Vec4)
    ensures Apply(RotateZY, Apply(RotateYZ, v)) == v
    ensures Apply(RotateYZ, Apply(RotateZY, v)) == v
  {
    ApplyRotateYZ(v);
    ApplyRotateZY(Apply(RotateYZ, v));
    ApplyRotateZY(v);
    ApplyRotateYZ(Apply(RotateZY, v));
  }

  /** ... and so on every matrix they multiply from the left, ... */
  lemma LeftMultiplicationsCancel(m: Matrix4x4)
    ensures Mul(RotateZY, Mul(RotateYZ, m)) == m
    ensures Mul(RotateYZ, Mul(RotateZY, m)) == m
  {
    RotationsUndoEachOther(m.c0);
    RotationsUndoEachOther(m.c1);
    RotationsUndoEachOther(m.c2);
    RotationsUndoEachOther(m.c3);
  }

  /** ... which makes RotateZY the two-sided inverse of RotateYZ. */
  lemma RotationsAreInverse()
    ensures Mul(RotateYZ, RotateZY) == IdentityMatrix
    ensures Mul(RotateZY, RotateYZ) == IdentityMatrix
  {
    MulIdentity(RotateYZ);
    MulIdentity(RotateZY);
    LeftMultiplicationsCancel(IdentityMatrix);
  }

  lemma MulIdentity(a: Matrix4x4)
    ensures Mul(a, IdentityMatrix) == a
  {
    ScaleByUnit(a.c0);
    ScaleByUnit(a.c1);
    ScaleByUnit(a.c2);
    ScaleByUnit(a.c3);
  }

  lemma ScaleByUnit(v: Vec4)
    ensures Scale(1, v) == v && Scale(0, v) == Vec4(0, 0, 0, 0)
  {
  }

  // ---------------------------------------------------------------------
  // The modified grid

  /** A grid under zero or more XZ modifiers. `cellType` is set when the
      underlying grid has a single cell type. */
  datatype ModifiedGrid<!CT> =
    | Plain(grid: Grid<CT>)
    | XZModifier(underlying: ModifiedGrid<CT>, xz: CT -> CT, cellType: Option<CT>, cellTypes: seq<CT>)

  function MapTypes<CT>(xz: CT -> CT, types: seq<CT>): (r: seq<CT>)
    ensures |r| == |types| && forall i :: 0 <= i < |types| ==> r[i] == xz(types[i])
  {
    seq(|types|, i requires 0 <= i < |types| => xz(types[i]))
  }

  /** The modifier's constructor: a single-cell-type grid must list exactly
      one cell type (`Single()`), else InvalidOperation is thrown. */
  function New<CT>(underlying: ModifiedGrid<CT>, xz: CT -> CT): (r: Result<ModifiedGrid<CT>>)
    ensures r.Failure? <==> View(underlying).isSingleCellType && |View(underlying).cellTypes| != 1
    ensures r.Failure? ==> r.error == InvalidOperation
    ensures r.Success? ==> r.value.XZModifier? && r.value.underlying == underlying && r.value.xz == xz
    ensures r.Success? ==> r.value.cellTypes == MapTypes(xz, View(underlying).cellTypes)
    ensures r.Success? ==> (r.value.cellType.Some? <==> View(underlying).isSingleCellType)
  {
    var v := View(underlying);
    if v.isSingleCellType then
      if |v.cellTypes| != 1 then Failure(InvalidOperation)
      else
        var t := xz(v.cellTypes[0]);
        Success(XZModifier(underlying, xz, Some(t), [t]))
    else
      Success(XZModifier(underlying, xz, None, MapTypes(xz, v.cellTypes)))
  }

  /** The same modifier over another underlying grid. */
  function Rebind<CT>(g: ModifiedGrid<CT>, underlying: ModifiedGrid<CT>): (r: Result<ModifiedGrid<CT>>)
    requires g.XZModifier?
    ensures r.Failure? <==> View(underlying).isSingleCellType && |View(underlying).cellTypes| != 1
    ensures r.Success? ==> r.value.XZModifier? && r.value.underlying == underlying && r.value.xz == g.xz
    ensures r.Success? ==> r.value.cellTypes == MapTypes(g.xz, View(underlying).cellTypes)
  {
    New(underlying, g.xz)
  }

  /** `g` is a modifier as the constructor builds it. */
  ghost predicate Built<CT>(g: ModifiedGrid<CT>)
  {
    g.XZModifier? && New(g.underlying, g.xz) == Success(g)
  }

  /** The listed types are the XZ variants of the underlying grid's list. */
  function GetCellTypes<CT>(g: ModifiedGrid<CT>): (r: seq<CT>)
    requires g.XZModifier?
    ensures Built(g) ==> r == MapTypes(g.xz, View(g.underlying).cellTypes)
  {
    g.cellTypes
  }

  /** The stored single cell type, else the XZ variant of the underlying cell's type. */
  function GetCellType<CT>(g: ModifiedGrid<CT>, cell: Cell): CT
    requires g.XZModifier?
    decreases g, 0
  {
    if g.cellType.Some? then g.cellType.value else g.xz(View(g.underlying).getCellType(cell))
  }

  /** The grid as IGrid: the modifier's cell types, everything else the
      underlying grid's (moves are not affected by the change of plane). */
  function View<CT>(g: ModifiedGrid<CT>): GridOps<CT>
    decreases g, 1
  {
    match g
    case Plain(grid) => grid.ops
    case XZModifier(u, _, _, cts) =>
      View(u).(getCellType := cell => GetCellType(g, cell), cellTypes := cts)
  }

  /** Number of XZ layers. */
  function Depth<CT>(g: ModifiedGrid<CT>): nat
  {
    if g.Plain? then 0 else 1 + Depth(g.underlying)
  }

  /** The grid with (up to) `k` outer layers removed. */
  function Peel<CT>(g: ModifiedGrid<CT>, k: nat): (r: ModifiedGrid<CT>)
    ensures Depth(r) == if Depth(g) >= k then Depth(g) - k else 0
  {
    if k == 0 || g.Plain? then g else Peel(g.underlying, k - 1)
  }

  /** The grid under all layers. */
  function Innermost<CT>(g: ModifiedGrid<CT>): (r: ModifiedGrid<CT>)
    ensures r.Plain?
  {
    if g.Plain? then g else Innermost(g.underlying)
  }

  /** ParallelTransport onto `g` from `aGrid`: between two XZ grids both are
      unwrapped; an XZ grid otherwise hands the call to its underlying grid
      (the inherited behaviour, which is why two XZ grids would meet one
      plain and one modified cell type); a plain grid runs the default
      algorithm. */
  function ParallelTransport<CT(==)>(rotate: (CT, int, int) -> int, g: ModifiedGrid<CT>, aGrid: ModifiedGrid<CT>,
                                     aSrcCell: Cell, aDestCell: Cell, srcCell: Cell,
                                     startRotation: int): (r: Result<Transport>)
    ensures r.Success? ==> r.value.destRotation == startRotation
    decreases g
  {
    if g.XZModifier? && aGrid.XZModifier? then
      ParallelTransport(rotate, g.underlying, aGrid.underlying, aSrcCell, aDestCell, srcCell, startRotation)
    else if g.XZModifier? then
      ParallelTransport(rotate, g.underlying, aGrid, aSrcCell, aDestCell, srcCell, startRotation)
    else
      DefaultGridImpl.ParallelTransport(rotate, View(aGrid), aSrcCell, aDestCell, View(g), srcCell, startRotation)
  }

  // ---------------------------------------------------------------------
  // Properties

  /** A grid that says it has a single cell type gives every cell that type. */
  ghost predicate HonestSingleType<CT>(v: GridOps<CT>)
  {
    v.isSingleCellType ==> |v.cellTypes| == 1 && forall c :: v.getCellType(c) == v.cellTypes[0]
  }

  /** Over an honest grid, the modifier gives every cell the XZ variant of its
      underlying type, lists the XZ variants of the listed types, and stays
      honest. */
  lemma CellTypesAreModified<CT>(underlying: ModifiedGrid<CT>, xz: CT -> CT, cell: Cell)
    requires HonestSingleType(View(underlying))
    ensures New(underlying, xz).Success?
    ensures GetCellType(New(underlying, xz).value, cell) == xz(View(underlying).getCellType(cell))
    ensures View(New(underlying, xz).value).cellTypes == MapTypes(xz, View(underlying).cellTypes)
    ensures HonestSingleType(View(New(underlying, xz).value))
  {
    var g := New(underlying, xz).value;
    if View(underlying).isSingleCellType {
      forall c ensures View(g).getCellType(c) == View(g).cellTypes[0] {
        assert View(g).getCellType(c) == GetCellType(g, c);
      }
    }
  }

  /** A cell's type is listed by the modifier whenever it was listed below. */
  lemma ListedTypesStayListed<CT>(underlying: ModifiedGrid<CT>, xz: CT -> CT, cell: Cell)
    requires HonestSingleType(View(underlying))
    requires View(underlying).getCellType(cell) in View(underlying).cellTypes
    ensures New(underlying, xz).Success?
    ensures GetCellType(New(underlying, xz).value, cell) in GetCellTypes(New(underlying, xz).value)
  {
    CellTypesAreModified(underlying, xz, cell);
    var v := View(underlying);
    var i :| 0 <= i < |v.cellTypes| && v.cellTypes[i] == v.getCellType(cell);
    assert MapTypes(xz, v.cellTypes)[i] == xz(v.getCellType(cell));
  }

  /** Transport between two grids with the same number of XZ layers is the
      default transport between the grids under all layers. */
  lemma {:induction false} MatchingLayersPeel<CT>(rotate: (CT, int, int) -> int, g: ModifiedGrid<CT>,
                                                     aGrid: ModifiedGrid<CT>, aSrcCell: Cell, aDestCell: Cell,
                                                     srcCell: Cell, startRotation: int)
    requires Depth(g) == Depth(aGrid)
    ensures ParallelTransport(rotate, g, aGrid, aSrcCell, aDestCell, srcCell, startRotation) ==
      DefaultGridImpl.ParallelTransport(rotate, View(Innermost(aGrid)), aSrcCell, aDestCell,
                                        View(Innermost(g)), srcCell, startRotation)
    decreases g
  {
    if g.XZModifier? {
      MatchingLayersPeel(rotate, g.underlying, aGrid.underlying, aSrcCell, aDestCell, srcCell, startRotation);
    }
  }

  /** In general, transport strips every XZ layer from the destination grid
      and as many from the source grid: the default runs between the
      innermost destination grid and whatever source remains. */
  lemma {:induction false} TransportPeelsLayers<CT>(rotate: (CT, int, int) -> int, g: ModifiedGrid<CT>,
                                                       aGrid: ModifiedGrid<CT>, aSrcCell: Cell, aDestCell: Cell,
                                                       srcCell: Cell, startRotation: int)
    ensures ParallelTransport(rotate, g, aGrid, aSrcCell, aDestCell, srcCell, startRotation) ==
      DefaultGridImpl.ParallelTransport(rotate, View(Peel(aGrid, Depth(g))), aSrcCell, aDestCell,
                                        View(Innermost(g)), srcCell, startRotation)
    decreases g
  {
    if g.XZModifier? && aGrid.XZModifier? {
      TransportPeelsLayers(rotate, g.underlying, aGrid.underlying, aSrcCell, aDestCell, srcCell, startRotation);
    } else if g.XZModifier? {
      TransportPeelsLayers(rotate, g.underlying, aGrid, aSrcCell, aDestCell, srcCell, startRotation);
    }
  }

  /** Onto a modified grid from a plain one, the layers are ignored: the
      default runs between the two plain grids. */
  lemma XZOntoPlainUsesPlainGrids<CT>(rotate: (CT, int, int) -> int, g: ModifiedGrid<CT>,
                                      aGrid: ModifiedGrid<CT>, aSrcCell: Cell, aDestCell: Cell,
                                      srcCell: Cell, startRotation: int)
    requires aGrid.Plain?
    ensures ParallelTransport(rotate, g, aGrid, aSrcCell, aDestCell, srcCell, startRotation) ==
      DefaultGridImpl.ParallelTransport(rotate, aGrid.grid.ops, aSrcCell, aDestCell,
                                        View(Innermost(g)), srcCell, startRotation)
  {
    TransportPeelsLayers(rotate, g, aGrid, aSrcCell, aDestCell, srcCell, startRotation);
  }
}
